=== FILE: README.md ===
# Dataset tools: a Dafny model of the split, refine, normalise and count logic

The repository is a set of Streamlit pages for preparing image datasets.
Each page wraps a small piece of list logic in UI and filesystem calls.
This project models that logic as pure functions and loop methods over
sequences of file names, and proves what each piece promises:

- **Detection split** (`DetectionSplit`, `detection_split.dfy`). The
  image files of `<source>/images` are selected by extension and shuffled.
  They are cut into consecutive slices: train takes `int(train * n)`
  files, valid the next `int(val * n)`, and test everything after them
  when the test ratio is positive.
  Each image is copied with its `.txt` label when the label exists. The
  page then writes `data.yaml` and checks the paths, the ratio sum and the
  class-name file before running.
- **Classification split** (`ClassificationSplit`,
  `classification_split.dfy`). This is a two-way train/val split. It runs
  either on a flat folder of images or on every class subfolder, and the
  class name is kept in the output.
- **Resolution refiner** (`Refiner`, `refiner.dfy`). Every walked file
  is opened as an image. Readable images below an enabled minimum width or
  height are deleted. The page keeps checked, deleted and kept counters and
  writes one log line per file.
- **Normaliser** (`Normalization`, `normalization.dfy`). At most `THRESH`
  shuffled `*.jpg` images are copied per class, and a running total is
  kept.
- **Class counter** (`ClassCounter`, `class_counter.dfy`). Image files
  are counted by the name of the folder holding them. The counts are
  reported for the model's class names, in the model's order.

Shared pieces live in two modules:

- `Common` (`common.dfy`) holds the list helpers: filter, slicing with
  Python's clamping, and multiset disjointness.
- `Common` also holds the string operations the pages rely on, each with
  a partner (a round trip or a characterisation):
  - `str.lower`, `str.endswith`, `str.strip`;
  - `PurePath.suffix`, the root of `os.path.splitext`, `os.path.basename`;
  - `str(int)` and `repr` of a list of strings, with decoders for both.
- `Ratios` (`ratios.dfy`) holds the ratio type, `int(r * n)` and the
  `round(x, 2) == 1.0` test.

Inputs replace the outside world:

- Directory listings, the walk of a folder and the shuffled order of
  every list are parameters. A shuffle is any reordering, stated as
  multiset equality.
- The result of opening a file as an image is a parameter, and so is
  whether a removal would succeed.
- Copies, created folders and the yaml lines are returned as plans.

The model follows the code as written, including:

- The detection splitter matches `jpeg` without a dot, so any name ending
  in `jpeg` is selected (`DetectionSplit.AnyJpegEndingSelected`).
- With a test ratio of zero, the files after the first `n_train + n_val`
  are dropped and counted nowhere (`DetectionSplit.ZeroTestDropsTail`).
- The ratios only need to round to 1.0, so they may add up to as much as
  1.005. `n_train + n_val` can then exceed `n`, and the slices clamp as
  Python's do. "Every file lands in exactly one split" holds only as
  "at most one split, and every file when the test ratio is positive".

## Model

| member | source | states |
|---|---|---|
| Common.FilterConcat | pages/1_Detection_Dataset_Split.py:29 | filtering a concatenation filters each part, in order |
| Common.Filter | pages/1_Detection_Dataset_Split.py:29 | a list comprehension with a condition keeps exactly the members that pass, in order, never more often than in the input |
| Common.PySlice | pages/1_Detection_Dataset_Split.py:37-39 | a slice `s[i:j]` clamps both bounds to the length, so it has `min(j, n) - min(i, j, n)` elements |
| Common.DisjointParts | pages/1_Detection_Dataset_Split.py:37-39 | parts drawn together from a list without repeats share no element |
| Common.SplitExtRootOf | pages/1_Detection_Dataset_Split.py:43 | for a name without `/`, as `os.listdir` gives it, the root of `stem.ext` under `os.path.splitext` is `stem` when `ext` has no dot and `stem` is not all dots |
| Common.SplitExtRoot | pages/1_Detection_Dataset_Split.py:43 | for a name without `/`, the root of `os.path.splitext` is a prefix of the name, and the whole name when it has no dot |
| Common.Lower | pages/1_Detection_Dataset_Split.py:29 | `str.lower` keeps the length and maps each character on its own: ASCII capitals to small letters, everything else unchanged |
| Common.LowerIdempotent | pages/4_Class_details.py:39 | a lowercased name holds no ASCII capital, so lowercasing it again changes nothing |
| Common.LowerConcat | pages/1_Detection_Dataset_Split.py:29 | lowercasing a concatenation lowercases each part on its own, so the lowercased name ends with the lowercased form of its ending |
| Common.PathSuffixOf | pages/5_Classification_Dataset_Splitter.py:16 | `PurePath(name).suffix` of `stem.ext`, with a non-empty stem and a non-empty dot-free extension, is `.ext` |
| Common.PathSuffixEmpty | pages/5_Classification_Dataset_Splitter.py:16 | `PurePath(name).suffix` is empty for a name with no dot, with a trailing dot, or whose only dot is its first character |
| Common.Basename | pages/4_Class_details.py:40 | `os.path.basename` holds no `/` and ends the path |
| Common.BasenameAfterSlash | pages/4_Class_details.py:40 | the base name is the whole path or follows a `/`; a path with no `/` is its own base name |
| Common.BasenameOfJoin | pages/4_Class_details.py:40 | the basename of `dir/name` is `name` when `name` has no `/` |
| Common.Strip | pages/1_Detection_Dataset_Split.py:113 | the result of `str.strip` has no whitespace at either end, and it is empty exactly when the line is all whitespace |
| Common.StripSlice | pages/1_Detection_Dataset_Split.py:113 | `str.strip` keeps one contiguous slice of the line; everything before it and everything after it is whitespace |
| Common.StripTrimmed | pages/1_Detection_Dataset_Split.py:113 | stripping a string with no whitespace at either end leaves it unchanged |
| Common.NatToString | pages/1_Detection_Dataset_Split.py:69 | `str(n)` is a non-empty run of digits that reads back as `n`, with no leading zero: it starts with `0` only for `n == 0`, and is then exactly `0` |
| Common.ParseListRepr | pages/1_Detection_Dataset_Split.py:70 | the `repr` of a list of strings reads back as exactly that list, order kept |
| Common.ReadQuotedEscape | pages/1_Detection_Dataset_Split.py:70 | the escaped body of a string literal, up to its closing quote, decodes to the string and leaves what follows the quote |
| Common.ParseItemsJoin | pages/1_Detection_Dataset_Split.py:70 | the items of a non-empty list literal, joined by `, ` and closed by `]`, decode to the list |
| Common.ParseStrRepr | pages/1_Detection_Dataset_Split.py:70 | the `repr` of one string reads back as that string and leaves the rest of the text |
| Common.ReprQuote | pages/1_Detection_Dataset_Split.py:70 | `repr` quotes with a single or a double quote; it uses a double quote exactly when the string holds a single quote and no double quote, and a single quote whenever the string holds no single quote |
| Ratios.ScaledFloor | pages/1_Detection_Dataset_Split.py:33-34 | `int(r * n)` is the largest whole number not above `r * n`, and never more than `n` |
| Ratios.RoundsToOne | pages/1_Detection_Dataset_Split.py:107 | `round(x, 2) == 1.0` holds exactly when `0.995 <= x <= 1.005`, which is exactly when `100 * x` rounds to 100 with ties going to the even neighbour, as Python's `round` does |
| Ratios.ScaledFloorMonotonic | pages/5_Classification_Dataset_Splitter.py:21 | a larger ratio never yields a smaller share |
| DetectionSplit.ImageFiles | pages/1_Detection_Dataset_Split.py:29 | exactly the names whose lowercased form ends in `.jpg`, `.png` or `jpeg`, in listing order |
| DetectionSplit.AnyJpegEndingSelected | pages/1_Detection_Dataset_Split.py:29 | any name ending in `jpeg`, in either case and with no dot, is selected |
| DetectionSplit.PartitionFiles | pages/1_Detection_Dataset_Split.py:32-39 | train has `int(train * n)` files, val `int(val * n)` clamped to what is left; the parts are consecutive slices of the shuffled list; with a positive test ratio they cover it all, otherwise test is empty |
| DetectionSplit.PartitionDisjoint | pages/1_Detection_Dataset_Split.py:37-39 | no file is in two parts, the parts hold nothing not shuffled, and with a positive test ratio they hold exactly the shuffled files |
| DetectionSplit.ZeroTestDropsTail | pages/1_Detection_Dataset_Split.py:39 | with a zero test ratio, a file behind the first `n_train + n_val` lands in no split |
| DetectionSplit.TenFilesSevenTwoOne | pages/1_Detection_Dataset_Split.py:32-39 | ten files at 0.7 / 0.2 / 0.1 split 7 / 2 / 1 |
| DetectionSplit.ThreeFilesDropOne | pages/1_Detection_Dataset_Split.py:32-39 | three files at 0.5 / 0.5 / 0.0 put one file in train, one in val, and drop the third |
| DetectionSplit.LabelName | pages/1_Detection_Dataset_Split.py:43 | the label name always ends in `.txt` |
| DetectionSplit.LabelNameReplacesExtension | pages/1_Detection_Dataset_Split.py:43 | the label of `stem.ext` is `stem.txt`: the last extension is replaced |
| DetectionSplit.ImagesCopiedConcat | pages/1_Detection_Dataset_Split.py:56-59 | the image copies of consecutive plans are the image copies of each, in order |
| DetectionSplit.MoveFiles | pages/1_Detection_Dataset_Split.py:41-53 | every copy goes to the split `move_files` was called for |
| DetectionSplit.ImagesCopiedFor | pages/1_Detection_Dataset_Split.py:47-49 | one image is copied exactly when it exists |
| DetectionSplit.MoveFilesImages | pages/1_Detection_Dataset_Split.py:41-49 | when every listed image exists, the images copied are exactly the list, in order |
| DetectionSplit.MoveFilesLabelsExist | pages/1_Detection_Dataset_Split.py:43-53 | every label copied exists and is the `.txt` name of a listed image |
| DetectionSplit.MoveFilesLabelsCopied | pages/1_Detection_Dataset_Split.py:43-53 | the label of every listed image is copied to the split when it exists |
| DetectionSplit.CreatedDirs | pages/1_Detection_Dataset_Split.py:20-26 | the train and valid image and label folders are always created, the test ones exactly when the test ratio is positive |
| DetectionSplit.ManifestTest | pages/1_Detection_Dataset_Split.py:64-70 | the manifest has a `test` entry, naming the test image folder, exactly when the test line is written |
| DetectionSplit.ManifestCounts | pages/1_Detection_Dataset_Split.py:64-70 | the `nc` and `names` entries read back as the text written for them, whether or not there is a test line |
| DetectionSplit.DataYaml | pages/1_Detection_Dataset_Split.py:62-70 | the manifest names the train and valid image folders; it has a test line exactly when the test ratio is positive; `nc` reads back as the number of class names, and the `names` value, decoded as a Python list literal (not as YAML), gives the class names in order |
| DetectionSplit.MoveParts | pages/1_Detection_Dataset_Split.py:56-59 | the images copied are the three parts in order, and nothing goes to test unless the test ratio is positive; every label copied exists and is the `.txt` name of an image of the part for its split, and every existing label of a part's image is copied into that part's split |
| DetectionSplit.MovePartsLabels | pages/1_Detection_Dataset_Split.py:43-53 | one `move_files` call copies only existing labels of its part's images, and copies every such label |
| DetectionSplit.PartLabelCopies | pages/1_Detection_Dataset_Split.py:56-59 | across the three `move_files` calls, each label copy belongs to an image of the part for its split, and every existing label of a part's image is copied into that split |
| DetectionSplit.SplitDataset | pages/1_Detection_Dataset_Split.py:7-72 | the split of a listing: the partition, folders and manifest above; the image copies are the parts; with a positive test ratio every image is copied once and the counts add up to the number of images, and never to more; each image's existing label is copied into the image's split, and no other label is copied |
| DetectionSplit.PartsFromListing | pages/1_Detection_Dataset_Split.py:29-39 | every file of a part comes from the listing |
| DetectionSplit.CountsIgnoreLabels | pages/1_Detection_Dataset_Split.py:52-53 | a missing label changes neither the image copies nor the returned counts |
| DetectionSplit.ParseClassNames | pages/1_Detection_Dataset_Split.py:113 | there are never more class names than lines |
| DetectionSplit.MapNonEmptyConcat | pages/1_Detection_Dataset_Split.py:113 | a comprehension that maps and drops empty results works line by line, so it distributes over concatenation |
| DetectionSplit.ParseClassNamesTrimmed | pages/1_Detection_Dataset_Split.py:113 | every class name is non-empty and carries no surrounding whitespace |
| DetectionSplit.ParseClassNamesNone | pages/1_Detection_Dataset_Split.py:113 | there are no class names exactly when every line is whitespace only |
| DetectionSplit.ParseClassNamesLine | pages/1_Detection_Dataset_Split.py:113 | one line gives no class name when it is whitespace only, and otherwise exactly its stripped text |
| DetectionSplit.ParseClassNamesStripped | pages/1_Detection_Dataset_Split.py:113 | every class name is some line with its whitespace stripped, and every line that is not whitespace only gives its stripped text as a class name |
| DetectionSplit.ParseClassNamesConcat | pages/1_Detection_Dataset_Split.py:113 | reading class names keeps the order of the lines |
| DetectionSplit.RunSplit | pages/1_Detection_Dataset_Split.py:104-118 | the split runs exactly when both paths are given, the ratios round to a sum of 1.0 and the class file exists, and each refusal has its own reason, checked in that order |
| ClassificationSplit.ImageNameByEnding | pages/5_Classification_Dataset_Splitter.py:16 | a name has an image suffix exactly when its lowercased form ends in `.jpg`, `.jpeg` or `.png` with a character before it |
| ClassificationSplit.ImageNameHasEnding | pages/5_Classification_Dataset_Splitter.py:16 | an image name ends, lowercased, with its suffix after at least one character |
| ClassificationSplit.EndingMakesImageName | pages/5_Classification_Dataset_Splitter.py:16 | a lowercased image ending after at least one character makes the name an image |
| ClassificationSplit.Folders | pages/5_Classification_Dataset_Splitter.py:43-46 | exactly the subfolder entries, in listing order; plain files are skipped |
| ClassificationSplit.SplitGroup | pages/5_Classification_Dataset_Splitter.py:20-27 | train holds `int(train * n)` images and val the other `n - n_train`; together they are the shuffled list, so no image is dropped |
| ClassificationSplit.SplitGroupPartition | pages/5_Classification_Dataset_Splitter.py:24-27 | train and val share no image and together hold exactly the group's images |
| ClassificationSplit.SplitFolders | pages/5_Classification_Dataset_Splitter.py:43-72 | one group per subfolder, in order, named after it; its train and val parts are its shuffled images, and train gets its share `int(train * n)` |
| ClassificationSplit.SplitFoldersTotals | pages/5_Classification_Dataset_Splitter.py:43-72 | the train and val counts of all groups add up to the number of images in the subfolders |
| ClassificationSplit.SplitFoldersPermute | pages/5_Classification_Dataset_Splitter.py:48-58 | each group holds exactly the images of its subfolder |
| ClassificationSplit.GroupDirs | pages/5_Classification_Dataset_Splitter.py:63-64 | each group gets a train and a val folder with its class name, and no folder is made for anything but a group |
| ClassificationSplit.FlatOutcome | pages/5_Classification_Dataset_Splitter.py:18-40 | flat mode: one unnamed group holding every top-level image, with totals adding up to their number |
| ClassificationSplit.FolderOutcome | pages/5_Classification_Dataset_Splitter.py:42-72 | class mode: one group per subfolder, with totals adding up to the images of all subfolders |
| ClassificationSplit.SplitDataset | pages/5_Classification_Dataset_Splitter.py:7-74 | the totals are the sums of the groups' train and val sizes and add up to the images considered; flat mode has one group of all top-level images, otherwise each subfolder's images go to folders with its name |
| ClassificationSplit.ValRatioIgnored | pages/5_Classification_Dataset_Splitter.py:21-22 | the validation ratio never changes the split |
| ClassificationSplit.FlatIgnoresFolders | pages/5_Classification_Dataset_Splitter.py:16-18 | in flat mode the subfolders and their contents play no part |
| ClassificationSplit.RunSplit | pages/5_Classification_Dataset_Splitter.py:98-105 | the split runs exactly when both paths are given and the two ratios round to a sum of 1.0; the outcome is then the split of the listing with the given shuffles, and its train and valid totals add up to the images considered |
| Refiner.Threshold | pages/3_Dataset_Refiner.py:77-78 | the cleaner's truthiness test sees a minimum exactly when the widget value is positive, and then sees that value |
| Refiner.NoThresholdKeepsAll | pages/3_Dataset_Refiner.py:21-25 | with both minimums off, no image is too small |
| Refiner.ZeroDisablesDimension | pages/3_Dataset_Refiner.py:22-25 | with a zero widget value for one dimension, only the other dimension's minimum can flag an image |
| Refiner.AtThresholdKept | pages/3_Dataset_Refiner.py:22-24 | an image exactly at both minimums is kept, as the comparisons are strict |
| Refiner.LargerKept | pages/3_Dataset_Refiner.py:21-25 | an image at least as large in both dimensions as a kept image is kept |
| Refiner.CheckedSplits | pages/3_Dataset_Refiner.py:18-36 | every readable file is deleted, fails to be deleted, or is kept: the three counts add up to `checked` |
| Refiner.VisitedSplits | pages/3_Dataset_Refiner.py:15-38 | every visited file is either checked or unreadable |
| Refiner.TallyZero | pages/3_Dataset_Refiner.py:27-36 | a verdict's count is zero exactly when no file receives it |
| Refiner.DeletedKeptBound | pages/3_Dataset_Refiner.py:27-36 | `deleted + kept <= checked`, with equality exactly when no attempted removal fails |
| Refiner.NoThresholdsNothingDeleted | pages/3_Dataset_Refiner.py:22-25 | with both minimums off, nothing is deleted and every readable image is kept |
| Refiner.DeleteSmallImages | pages/3_Dataset_Refiner.py:5-40 | the counters equal the reference counts of readable, deleted and kept files, and there is exactly one log line per file, naming it and reporting its verdict |
| Refiner.RunCleaner | pages/3_Dataset_Refiner.py:73-86 | a folder that strips to nothing is refused; otherwise the width widget's threshold applies to widths and the height widget's to heights: `deleted` and `kept` are the reference tallies and each file's log line reports its verdict under them; `deleted + kept <= checked`, and zero minimums delete nothing |
| Normalization.ClassImages | pages/2_Normalization.py:37 | exactly the names of the class folder matching `*.jpg` |
| Normalization.CopyClass | pages/2_Normalization.py:40-53 | exactly the first `min(THRESH, n)` shuffled images are copied, and the class folder is made exactly when there is an image |
| Normalization.Normalize | pages/2_Normalization.py:35-55 | one entry per class, in order; each copies the first `min(THRESH, n)` images of its shuffled list of `n` and has its folder made exactly when the list is non-empty; the total is the sum of those counts |
| Normalization.CappedSumOfClasses | pages/2_Normalization.py:35-55 | summed over the shuffled lists or over the class folders' `*.jpg` images, the capped counts agree, since a shuffle keeps the count |
| Normalization.CopiesOfClass | pages/2_Normalization.py:37-53 | a class copies `min(THRESH, n)` of the `n` images the glob finds, and its folder is made exactly when there is one |
| Normalization.CopiedDistinctMembers | pages/2_Normalization.py:37-44 | the copied images are distinct `*.jpg` names of their class |
| Normalization.RunNormalize | pages/2_Normalization.py:23-55 | the normaliser runs exactly when both paths are given; each class then copies the first `min(THRESH, n)` of its `n` shuffled images under its own name, creates its output folder exactly when it has images, and the total is the sum of those counts |
| ClassCounter.UnseenLabelCountsZero | pages/4_Class_details.py:45-46 | a class name no walked folder bears counts 0 |
| ClassCounter.MapSumRemove | pages/4_Class_details.py:41 | the sum of the counts may be taken apart at any key |
| ClassCounter.MapSumIncrement | pages/4_Class_details.py:41 | one increment adds one to the sum of the counts |
| ClassCounter.CountFiles | pages/4_Class_details.py:38-41 | each counted image in a folder adds one to the folder's count and to the sum, and no other count changes |
| ClassCounter.CountImages | pages/4_Class_details.py:37-41 | each name's count is the number of counted images in folders of that name; a name is a key exactly when it counted something; the counts add up to the number of counted images walked |
| ClassCounter.Report | pages/4_Class_details.py:45-46 | one report line per class name, in the model's order |
| ClassCounter.RunCounter | pages/4_Class_details.py:22-46 | the counter runs exactly when both paths are given; it reports exactly the model's class names in order, each with its number of counted images, 0 for none, and no other folder |

## Left out

- The Streamlit UI is left out: titles, explanations, widgets, progress bars, spinners and message display. The hub page holds only text.
- Filesystem effects are left out. Listings, the walk and the class-name file's lines are inputs. Copies, created folders, removals and the yaml file are returned plans or flags. The order of a listing is whatever the input gives.
- `random.shuffle` is not modelled. Every shuffle is an arbitrary reordering given as a parameter.
- Floating point is not modelled. Ratios are exact reals in [0, 1], and `int(r * n)` is the floor of the exact product. IEEE rounding can floor a product one lower; for example, `0.29 * 100` evaluates to just under 29. `round(x, 2) == 1.0` is decided on the exact sum.
- Common.Lower: only ASCII letters are lowercased. Other characters stay as they are.
- Common.ParseListRepr: the `repr` model escapes backslashes, quotes, tab, newline, carriage return and other ASCII control characters. The escapes Python picks for non-ASCII non-printable characters are not modelled.
- Normalization.ClassImages: the class folder's name is taken literally. The source builds a glob pattern from it, so a folder name holding glob metacharacters such as `[` or `*` would match other paths; that is not modelled.
- DetectionSplit.ParseClassNames: the file's lines are given already split. Newline translation by `readlines` is not modelled.
- DetectionSplit.MoveFiles: whether an image and a label exist is given as two sets of names.
- ClassificationSplit.SplitDataset: in flat mode, a top-level folder with an image-like name counts as an image. Copying it would fail in the source, and that failure is not modelled.
- The text of exception messages in the refiner's failure log lines is left out. The line records the file and the verdict.
- Image decoding is a parameter: each walked file is either unreadable or has a width and height.
- The model file of the class counter is not loaded. Its class names are given as a sequence.
- A failure to load the model, and any other exception that ends a page early, is not modelled.
- The image resizer page is not part of this model. Its only logic is forming a `_resized` file name around the cv2 calls.

=== FILE: class_counter.dfy ===
/** The class counter: every image file under a dataset folder is counted
    against the name of the folder holding it, and the counts are reported
    for the class names of a trained model, in the model's order.

    The walk of the dataset folder and the model's class names are inputs. */
module ClassCounter {
  import opened Common

  /** One step of the walk: a directory path and the names of the files
      directly in it. */
  datatype WalkStep = WalkStep(root: string, files: seq<string>)

  /** `file.lower().endswith(('.jpg', '.png', '.jpeg'))`. */
  predicate IsCountedImage(f: string)
  {
    var l := Lower(f);
    EndsWith(l, ".jpg") || EndsWith(l, ".png") || EndsWith(l, ".jpeg")
  }

  /** The count kept for `cls`; a name never incremented counts 0, as
      for a `defaultdict(int)` and for `.get(cls, 0)`. */
  function Get(counts: map<string, nat>, cls: string): nat
  {
    if cls in counts then counts[cls] else 0
  }

  // ---------------------------------------------------------------------
  // Reference counts
  // ---------------------------------------------------------------------

  /** The number of counted images among `files`. */
  function Matching(files: seq<string>): nat
  {
    if |files| == 0 then 0
    else Matching(files[..|files| - 1]) + (if IsCountedImage(files[|files| - 1]) then 1 else 0)
  }

  /** The number of counted images in the walked directories whose last
      path component is `cls`. */
  function CountFor(walk: seq<WalkStep>, cls: string): nat
  {
    if |walk| == 0 then 0
    else
      var last := walk[|walk| - 1];
      CountFor(walk[..|walk| - 1], cls) + (if Basename(last.root) == cls then Matching(last.files) else 0)
  }

  /** The number of counted images in the whole walk. */
  function TotalMatching(walk: seq<WalkStep>): nat
  {
    if |walk| == 0 then 0
    else TotalMatching(walk[..|walk| - 1]) + Matching(walk[|walk| - 1].files)
  }

  /** A name no walked directory is named after counts nothing. */
  lemma {:induction false} UnseenLabelCountsZero(walk: seq<WalkStep>, cls: string)
    requires forall s :: s in walk ==> Basename(s.root) != cls
    ensures CountFor(walk, cls) == 0
  {
    if |walk| > 0 {
      assert walk[|walk| - 1] in walk;
      assert forall s :: s in walk[..|walk| - 1] ==> s in walk;
      UnseenLabelCountsZero(walk[..|walk| - 1], cls);
    }
  }

  // ---------------------------------------------------------------------
  // Sum of a count map
  // ---------------------------------------------------------------------

  /** The sum of all counts of a map. */
  ghost function MapSum(m: map<string, nat>): nat
    decreases |m.Keys|
  {
    if m == map[] then 0
    else
      var k :| k in m;
      m[k] + MapSum(m - {k})
  }

  /** The sum may be taken apart at any key. */
  lemma {:induction false} MapSumRemove(m: map<string, nat>, k: string)
    requires k in m
    ensures MapSum(m) == m[k] + MapSum(m - {k})
    decreases |m.Keys|
  {
    var j :| j in m && MapSum(m) == m[j] + MapSum(m - {j});
    if j != k {
      var mj, mk := m - {j}, m - {k};
      assert (m - {j}).Keys == m.Keys - {j};
      MapSumRemove(mj, k);
      assert (m - {k}).Keys == m.Keys - {k};
      MapSumRemove(mk, j);
      assert mj - {k} == mk - {j};
    }
  }

  /** One increment adds one to the sum. */
  lemma MapSumIncrement(m: map<string, nat>, cls: string)
    ensures MapSum(m[cls := Get(m, cls) + 1]) == MapSum(m) + 1
  {
    var m' := m[cls := Get(m, cls) + 1];
    MapSumRemove(m', cls);
    if cls in m {
      MapSumRemove(m, cls);
      assert m' - {cls} == m - {cls};
    } else {
      assert m' - {cls} == m;
    }
  }

  // ---------------------------------------------------------------------
  // The counting walk
  // ---------------------------------------------------------------------

  /** Every key of the map was incremented at least once. */
  predicate NoZeroKeys(m: map<string, nat>)
  {
    forall k :: k in m ==> m[k] > 0
  }

  /** The inner loop over the files of one directory: each counted image
      adds one to `cls`, and no other count changes. */
  method CountFiles(counts: map<string, nat>, cls: string, files: seq<string>)
    returns (counts': map<string, nat>)
    requires NoZeroKeys(counts)
    ensures NoZeroKeys(counts')
    ensures Get(counts', cls) == Get(counts, cls) + Matching(files)
    ensures forall l :: l != cls ==> Get(counts', l) == Get(counts, l)
    ensures forall l :: l in counts' <==> l in counts || (l == cls && Matching(files) > 0)
    ensures MapSum(counts') == MapSum(counts) + Matching(files)
  {
    counts' := counts;
    for j := 0 to |files|
      invariant NoZeroKeys(counts')
      invariant Get(counts', cls) == Get(counts, cls) + Matching(files[..j])
      invariant forall l :: l != cls ==> Get(counts', l) == Get(counts, l)
      invariant forall l :: l in counts' <==> l in counts || (l == cls && Matching(files[..j]) > 0)
      invariant MapSum(counts') == MapSum(counts) + Matching(files[..j])
    {
      assert files[..j + 1][..j] == files[..j];
      if IsCountedImage(files[j]) {
        MapSumIncrement(counts', cls);
        counts' := counts'[cls := Get(counts', cls) + 1];
      }
    }
    assert files[..|files|] == files;
  }

  /** Walking one more directory adds its counted images to the count of
      its name, and to the total. */
  lemma CountStep(walk: seq<WalkStep>, i: nat)
    requires i < |walk|
    ensures forall l :: CountFor(walk[..i + 1], l)
              == CountFor(walk[..i], l) + (if Basename(walk[i].root) == l then Matching(walk[i].files) else 0)
    ensures TotalMatching(walk[..i + 1]) == TotalMatching(walk[..i]) + Matching(walk[i].files)
  {
    assert walk[..i + 1][..i] == walk[..i];
  }

  /** The `os.walk` loop of the counter page: every counted image increments the count of
      the last component of its directory path. Each name ends up with the
      number of counted images in directories of that name, a name is a
      key exactly when it counted something, and the counts add up to the
      number of counted images walked. */
  method CountImages(walk: seq<WalkStep>) returns (counts: map<string, nat>)
    ensures forall l :: Get(counts, l) == CountFor(walk, l)
    ensures forall l :: l in counts <==> CountFor(walk, l) > 0
    ensures MapSum(counts) == TotalMatching(walk)
  {
    counts := map[];
    for i := 0 to |walk|
      invariant NoZeroKeys(counts)
      invariant forall l :: Get(counts, l) == CountFor(walk[..i], l)
      invariant MapSum(counts) == TotalMatching(walk[..i])
    {
      var cls := Basename(walk[i].root);
      CountStep(walk, i);
      counts := CountFiles(counts, cls, walk[i].files);
    }
    assert walk[..|walk|] == walk;
  }

  // ---------------------------------------------------------------------
  // The report
  // ---------------------------------------------------------------------

  /** One reported line: a class name and its count. */
  datatype Line = Line(name: string, count: nat)

  /** The report loop: one line per class name, in the model's order. */
  function Report(names: seq<string>, counts: map<string, nat>): (r: seq<Line>)
    ensures |r| == |names|
    ensures forall i :: 0 <= i < |r| ==> r[i].name == names[i]
  {
    seq(|names|, i requires 0 <= i < |names| => Line(names[i], Get(counts, names[i])))
  }

  datatype CounterError = MissingPaths

  /** The button handler: both paths must be given. The report then holds
      exactly the model's class names in order, each with the number of
      counted images in folders of that name, 0 when there are none;
      folders of other names are counted but never reported. */
  method RunCounter(modelPath: string, datasetDir: string, names: seq<string>, walk: seq<WalkStep>)
    returns (r: Result<seq<Line>, CounterError>)
    ensures r.Err? <==> modelPath == [] || datasetDir == []
    ensures r.Ok? ==> |r.value| == |names|
    ensures r.Ok? ==> forall i :: 0 <= i < |names| ==> r.value[i] == Line(names[i], CountFor(walk, names[i]))
    ensures r.Ok? ==> forall line :: line in r.value ==> line.name in names
  {
    if modelPath == [] || datasetDir == [] {
      return Err(MissingPaths);
    }
    var counts := CountImages(walk);
    return Ok(Report(names, counts));
  }
}

=== FILE: classification_split.dfy ===
/** The classification splitter: a two-way train/val split of either a flat
    folder of images or of every class subfolder, preserving the class name
    in the output, and the checks the page makes before calling it.

    The listing of the dataset folder (with the listing of each subfolder)
    and the shuffled order of every group are inputs; the copies and the
    created folders are returned as a plan. */
module ClassificationSplit {
  import opened Common
  import opened Ratios

  // ---------------------------------------------------------------------
  // Image test
  // ---------------------------------------------------------------------

  const ImageSuffixes: seq<string> := [".jpg", ".jpeg", ".png"]

  /** `Path(f).suffix.lower() in image_extensions`. */
  predicate IsImageName(f: string)
  {
    Lower(PathSuffix(f)) in ImageSuffixes
  }

  /** Lowercasing moves no dot. */
  lemma LowerDot(c: char)
    ensures LowerChar(c) == '.' <==> c == '.'
  {
  }

  lemma LowerSlice(f: string, i: nat)
    requires i <= |f|
    ensures Lower(f[i..]) == Lower(f)[i..]
  {
  }

  /** An image name ends, once lowercased, with its suffix. */
  lemma ImageNameHasEnding(f: string)
    requires IsImageName(f)
    ensures var e := Lower(PathSuffix(f)); e in ImageSuffixes && |f| > |e| && EndsWith(Lower(f), e)
  {
    var i := LastIndex(f, '.');
    assert 0 < i < |f| - 1;
    LowerSlice(f, i);
  }

  /** Where the lowercased name ends with `e`, the name has a dot only
      where `e` has one. */
  lemma NoDotAfterEnding(f: string, e: string)
    requires 0 < |e| <= |f| && EndsWith(Lower(f), e) && '.' !in e[1..]
    ensures forall j :: |f| - |e| < j < |f| ==> f[j] != '.'
  {
    var k := |f| - |e|;
    forall j | k < j < |f| ensures f[j] != '.' {
      assert Lower(f)[j] == e[j - k] == e[1..][j - k - 1];
      LowerDot(f[j]);
    }
  }

  /** A lowercased ending `e` with at least one character before it makes
      the name an image name. */
  lemma EndingMakesImageName(f: string, e: string)
    requires e in ImageSuffixes && |f| > |e| && EndsWith(Lower(f), e)
    ensures IsImageName(f)
  {
    var k := |f| - |e|;
    assert Lower(f)[k] == e[0] == '.';
    LowerDot(f[k]);
    assert '.' !in e[1..];
    NoDotAfterEnding(f, e);
    LastIndexAt(f, '.', k);
    LowerSlice(f, k);
    assert PathSuffix(f) == f[k..];
  }

  /** A name is an image exactly when its lowercased form ends with one of
      the three suffixes and has at least one character before it: a hidden
      file such as `.png` has no suffix at all. */
  lemma ImageNameByEnding(f: string)
    ensures IsImageName(f) <==> exists e :: e in ImageSuffixes && |f| > |e| && EndsWith(Lower(f), e)
  {
    if IsImageName(f) {
      ImageNameHasEnding(f);
    }
    if e :| e in ImageSuffixes && |f| > |e| && EndsWith(Lower(f), e) {
      EndingMakesImageName(f, e);
    }
  }

  // ---------------------------------------------------------------------
  // Folder listing
  // ---------------------------------------------------------------------

  /** An entry of the dataset folder: a plain file, or a subfolder with the
      names it lists. */
  datatype Entry = File(name: string) | Folder(name: string, listing: seq<string>)

  predicate IsFolder(e: Entry)
  {
    e.Folder?
  }

  function Names(entries: seq<Entry>): (r: seq<string>)
    ensures |r| == |entries|
    ensures forall i :: 0 <= i < |entries| ==> r[i] == entries[i].name
  {
    seq(|entries|, i requires 0 <= i < |entries| => entries[i].name)
  }

  /** The image names of the top level, folders included: the flat-mode test looks at
      every entry's name, whatever its kind. */
  function TopLevelImages(entries: seq<Entry>): seq<string>
  {
    Filter(Names(entries), IsImageName)
  }

  /** Flat mode is chosen as soon as one top-level name is an image name. */
  predicate IsFlat(entries: seq<Entry>)
  {
    TopLevelImages(entries) != []
  }

  /** The subfolders, in listing order; plain files are skipped. */
  function Folders(entries: seq<Entry>): (r: seq<Entry>)
    ensures forall i :: 0 <= i < |r| ==> r[i].Folder?
    ensures forall e :: e in r <==> e in entries && e.Folder?
  {
    Filter(entries, IsFolder)
  }

  function FolderImages(e: Entry): seq<string>
    requires e.Folder?
  {
    Filter(e.listing, IsImageName)
  }

  // ---------------------------------------------------------------------
  // Splitting one group
  // ---------------------------------------------------------------------

  datatype Split = Train | Val

  function SplitDir(s: Split): string
  {
    match s
    case Train => "train"
    case Val => "val"
  }

  /** The split of one group of images. `folder` is the class subfolder the
      images come from and go to, `None` in flat mode: an image `x` of the
      train part is copied from `<dataset>[/<folder>]/x` to
      `<output>/train[/<folder>]/x`, and likewise for val. */
  datatype Group = Group(folder: Option<string>, train: seq<string>, val: seq<string>)

  /** The train part of a group is `int(train * n)` of its `n` images. */
  predicate FairShare(g: Group, train: Ratio)
  {
    |g.train| == ScaledFloor(train, |g.train| + |g.val|)
  }

  /** `n_train = int(train * n)`, `n_val = n - n_train`; train is the first
      `n_train` shuffled images and val the rest, so nothing is dropped. */
  function SplitGroup(folder: Option<string>, shuffled: seq<string>, train: Ratio): (g: Group)
    ensures g.folder == folder
    ensures |g.train| == ScaledFloor(train, |shuffled|)
    ensures |g.val| == |shuffled| - |g.train|
    ensures g.train + g.val == shuffled
    ensures FairShare(g, train)
  {
    var n := |shuffled|;
    var nTrain := ScaledFloor(train, n);
    var nVal := n - nTrain;
    Group(folder, PySlice(shuffled, 0, nTrain), PySlice(shuffled, nTrain, nTrain + nVal))
  }

  /** The two parts of a group share no image and together hold each image
      of the group exactly as often as the group does. */
  lemma SplitGroupPartition(folder: Option<string>, shuffled: seq<string>, train: Ratio)
    requires Distinct(shuffled)
    ensures var g := SplitGroup(folder, shuffled, train);
      && (forall f :: f in g.train ==> f !in g.val)
      && multiset(g.train) + multiset(g.val) == multiset(shuffled)
  {
    var g := SplitGroup(folder, shuffled, train);
    assert multiset(g.train + g.val) == multiset(g.train) + multiset(g.val);
    DisjointParts(g.train, g.val, shuffled);
  }

  // ---------------------------------------------------------------------
  // All groups
  // ---------------------------------------------------------------------

  function TrainTotal(gs: seq<Group>): nat
  {
    if |gs| == 0 then 0 else |gs[0].train| + TrainTotal(gs[1..])
  }

  function ValTotal(gs: seq<Group>): nat
  {
    if |gs| == 0 then 0 else |gs[0].val| + ValTotal(gs[1..])
  }

  /** The number of images in the given subfolders. */
  function ImageTotal(folders: seq<Entry>): nat
    requires forall i :: 0 <= i < |folders| ==> folders[i].Folder?
  {
    if |folders| == 0 then 0 else |FolderImages(folders[0])| + ImageTotal(folders[1..])
  }

  /** `shuffles[k]` is a reordering of the images of `folders[k]`. */
  predicate ShufflesOf(folders: seq<Entry>, shuffles: seq<seq<string>>)
  {
    && |shuffles| == |folders|
    && forall k :: 0 <= k < |folders| ==>
         folders[k].Folder? && IsPermutation(shuffles[k], FolderImages(folders[k]))
  }

  /** Dropping the first folder and its shuffle keeps the pairing, and the
      first shuffle has as many images as its folder. */
  lemma ShufflesOfTail(folders: seq<Entry>, shuffles: seq<seq<string>>)
    requires ShufflesOf(folders, shuffles) && |folders| > 0
    ensures ShufflesOf(folders[1..], shuffles[1..])
    ensures |shuffles[0]| == |FolderImages(folders[0])|
  {
    PermutationLength(shuffles[0], FolderImages(folders[0]));
  }

  /** The loop of `split_dataset` over the subfolders: one group per subfolder,
      in order, named after it, holding its shuffled images and giving the
      train part its share. */
  function SplitFolders(folders: seq<Entry>, shuffles: seq<seq<string>>, train: Ratio): (gs: seq<Group>)
    requires ShufflesOf(folders, shuffles)
    ensures |gs| == |folders|
    ensures forall k :: 0 <= k < |gs| ==>
              && gs[k].folder == Some(folders[k].name)
              && gs[k].train + gs[k].val == shuffles[k]
              && FairShare(gs[k], train)
  {
    if |folders| == 0 then []
    else
      ShufflesOfTail(folders, shuffles);
      [SplitGroup(Some(folders[0].name), shuffles[0], train)]
      + SplitFolders(folders[1..], shuffles[1..], train)
  }

  /** The per-group counts add up to the number of images in the
      subfolders. */
  lemma {:induction false} SplitFoldersTotals(folders: seq<Entry>, shuffles: seq<seq<string>>, train: Ratio)
    requires ShufflesOf(folders, shuffles)
    ensures var gs := SplitFolders(folders, shuffles, train);
      TrainTotal(gs) + ValTotal(gs) == ImageTotal(folders)
  {
    if |folders| > 0 {
      ShufflesOfTail(folders, shuffles);
      SplitFoldersTotals(folders[1..], shuffles[1..], train);
      var gs := SplitFolders(folders, shuffles, train);
      assert gs[1..] == SplitFolders(folders[1..], shuffles[1..], train);
    }
  }

  /** Each group of the class mode holds exactly the images of its folder. */
  lemma SplitFoldersPermute(folders: seq<Entry>, shuffles: seq<seq<string>>, train: Ratio)
    requires ShufflesOf(folders, shuffles)
    ensures var gs := SplitFolders(folders, shuffles, train);
      forall k :: 0 <= k < |gs| ==> IsPermutation(gs[k].train + gs[k].val, FolderImages(folders[k]))
  {
    var gs := SplitFolders(folders, shuffles, train);
    forall k | 0 <= k < |gs| ensures IsPermutation(gs[k].train + gs[k].val, FolderImages(folders[k])) {
      assert gs[k].train + gs[k].val == shuffles[k];
    }
  }

  // ---------------------------------------------------------------------
  // split_dataset
  // ---------------------------------------------------------------------

  /** A created folder `<output>/<split>[/<folder>]`. */
  datatype OutDir = OutDir(split: Split, folder: Option<string>)

  /** What one call of `split_dataset` returns and plans. */
  datatype Outcome = Outcome(totalTrain: nat, totalVal: nat, groups: seq<Group>, dirs: seq<OutDir>)

  /** The number of images the split works on: the top-level images in flat
      mode, the images of every subfolder otherwise. */
  function ConsideredCount(entries: seq<Entry>): nat
  {
    if IsFlat(entries) then |TopLevelImages(entries)| else ImageTotal(Folders(entries))
  }

  /** The folders a group is copied into. */
  function GroupDirs(gs: seq<Group>): (ds: seq<OutDir>)
    ensures forall g :: g in gs ==> OutDir(Train, g.folder) in ds && OutDir(Val, g.folder) in ds
    ensures forall d :: d in ds ==> exists g :: g in gs && d.folder == g.folder
  {
    if |gs| == 0 then []
    else [OutDir(Train, gs[0].folder), OutDir(Val, gs[0].folder)] + GroupDirs(gs[1..])
  }

  /** Every group has both of its folders, after the two root folders. */
  predicate DirsCover(r: Outcome)
  {
    && OutDir(Train, None) in r.dirs && OutDir(Val, None) in r.dirs
    && forall g :: g in r.groups ==> OutDir(Train, g.folder) in r.dirs && OutDir(Val, g.folder) in r.dirs
  }

  /** Every group's train part is `int(train * n)` of its `n` images. */
  predicate TrainShares(r: Outcome, train: Ratio)
  {
    forall k :: 0 <= k < |r.groups| ==> FairShare(r.groups[k], train)
  }

  const RootDirs: seq<OutDir> := [OutDir(Train, None), OutDir(Val, None)]

  /** Flat mode: one group of all top-level images, copied straight into
      `<output>/train` and `<output>/val`. */
  function FlatOutcome(images: seq<string>, shuffled: seq<string>, train: Ratio): (r: Outcome)
    requires IsPermutation(shuffled, images)
    ensures r.totalTrain == TrainTotal(r.groups) && r.totalVal == ValTotal(r.groups)
    ensures r.totalTrain + r.totalVal == |images|
    ensures |r.groups| == 1 && r.groups[0].folder == None
    ensures IsPermutation(r.groups[0].train + r.groups[0].val, images)
    ensures TrainShares(r, train) && DirsCover(r)
  {
    var g := SplitGroup(None, shuffled, train);
    PermutationLength(shuffled, images);
    assert [g][1..] == [];
    Outcome(|g.train|, |g.val|, [g], RootDirs + GroupDirs([g]))
  }

  /** Class mode: one group per subfolder. */
  function FolderOutcome(folders: seq<Entry>, shuffles: seq<seq<string>>, train: Ratio): (r: Outcome)
    requires ShufflesOf(folders, shuffles)
    ensures r.totalTrain == TrainTotal(r.groups) && r.totalVal == ValTotal(r.groups)
    ensures r.totalTrain + r.totalVal == ImageTotal(folders)
    ensures |r.groups| == |folders|
    ensures forall k :: 0 <= k < |r.groups| ==>
              && r.groups[k].folder == Some(folders[k].name)
              && IsPermutation(r.groups[k].train + r.groups[k].val, FolderImages(folders[k]))
    ensures TrainShares(r, train) && DirsCover(r)
  {
    var gs := SplitFolders(folders, shuffles, train);
    SplitFoldersPermute(folders, shuffles, train);
    SplitFoldersTotals(folders, shuffles, train);
    Outcome(TrainTotal(gs), ValTotal(gs), gs, RootDirs + GroupDirs(gs))
  }

  /** `split_dataset(dataset_dir, output_dir, {"train": train, "val": val})`.
      `flatShuffle` is the shuffled top-level image list and
      `folderShuffles[k]` the shuffled image list of the k-th subfolder.
      The returned totals count every image considered exactly once; in
      flat mode the subfolders play no part, otherwise each subfolder's
      images go to folders named after it. */
  function SplitDataset(entries: seq<Entry>, train: Ratio, val: Ratio,
                        flatShuffle: seq<string>, folderShuffles: seq<seq<string>>): (r: Outcome)
    requires IsPermutation(flatShuffle, TopLevelImages(entries))
    requires ShufflesOf(Folders(entries), folderShuffles)
    ensures r.totalTrain == TrainTotal(r.groups) && r.totalVal == ValTotal(r.groups)
    ensures r.totalTrain + r.totalVal == ConsideredCount(entries)
    ensures IsFlat(entries) ==>
              && |r.groups| == 1 && r.groups[0].folder == None
              && IsPermutation(r.groups[0].train + r.groups[0].val, TopLevelImages(entries))
    ensures !IsFlat(entries) ==>
              && |r.groups| == |Folders(entries)|
              && forall k :: 0 <= k < |r.groups| ==>
                   && r.groups[k].folder == Some(Folders(entries)[k].name)
                   && IsPermutation(r.groups[k].train + r.groups[k].val, FolderImages(Folders(entries)[k]))
    ensures TrainShares(r, train) && DirsCover(r)
  {
    if IsFlat(entries) then FlatOutcome(TopLevelImages(entries), flatShuffle, train)
    else FolderOutcome(Folders(entries), folderShuffles, train)
  }

  /** The validation ratio only gives the val folder its name: it never
      changes the split. */
  lemma ValRatioIgnored(entries: seq<Entry>, train: Ratio, val1: Ratio, val2: Ratio,
                        flatShuffle: seq<string>, folderShuffles: seq<seq<string>>)
    requires IsPermutation(flatShuffle, TopLevelImages(entries))
    requires ShufflesOf(Folders(entries), folderShuffles)
    ensures SplitDataset(entries, train, val1, flatShuffle, folderShuffles)
         == SplitDataset(entries, train, val2, flatShuffle, folderShuffles)
  {
  }

  /** In flat mode the subfolders and their contents play no part: two
      listings with the same top-level names split alike. */
  lemma FlatIgnoresFolders(entries1: seq<Entry>, entries2: seq<Entry>, train: Ratio, val: Ratio,
                           flatShuffle: seq<string>, shuffles1: seq<seq<string>>, shuffles2: seq<seq<string>>)
    requires Names(entries1) == Names(entries2) && IsFlat(entries1)
    requires IsPermutation(flatShuffle, TopLevelImages(entries1))
    requires ShufflesOf(Folders(entries1), shuffles1) && ShufflesOf(Folders(entries2), shuffles2)
    ensures SplitDataset(entries1, train, val, flatShuffle, shuffles1)
         == SplitDataset(entries2, train, val, flatShuffle, shuffles2)
  {
  }

  // ---------------------------------------------------------------------
  // The page's checks before the split
  // ---------------------------------------------------------------------

  datatype RequestError = MissingPaths | RatiosDoNotSumToOne

  /** The button handler: both paths must be given and the two ratios must
      round to a sum of 1.0; only then is the split made. */
  function RunSplit(datasetDir: string, outputDir: string, train: Ratio, val: Ratio, entries: seq<Entry>,
                    flatShuffle: seq<string>, folderShuffles: seq<seq<string>>): (r: Result<Outcome, RequestError>)
    requires IsPermutation(flatShuffle, TopLevelImages(entries))
    requires ShufflesOf(Folders(entries), folderShuffles)
    ensures r.Err? && r.error == MissingPaths <==> datasetDir == [] || outputDir == []
    ensures r.Ok? <==> datasetDir != [] && outputDir != [] && RoundsToOne(train + val)
    ensures r.Ok? ==> r.value.totalTrain + r.value.totalVal == ConsideredCount(entries)
    ensures r.Ok? ==> r.value == SplitDataset(entries, train, val, flatShuffle, folderShuffles)
  {
    if datasetDir == [] || outputDir == [] then Err(MissingPaths)
    else if !RoundsToOne(train + val) then Err(RatiosDoNotSumToOne)
    else Ok(SplitDataset(entries, train, val, flatShuffle, folderShuffles))
  }
}

=== FILE: common.dfy ===
/** Helpers shared by every tool: failure-carrying datatypes, sequence
    filtering, and the few Python string and path built-ins the tools rely on
    (`str.lower`, `str.endswith`, `str.rfind`, `str.strip`, `PurePath.suffix`,
    `os.path.splitext`, `os.path.basename`, `str(int)` and `repr` of a list of
    strings), restated over `seq<char>`. Each formatter comes with a decoder and
    a round-trip lemma, so its output is known to determine its input. */
module Common {

  datatype Option<+T> = None | Some(value: T)

  datatype Result<+T, +E> = Ok(value: T) | Err(error: E)

  function Min(a: int, b: int): int
  {
    if a <= b then a else b
  }

  // ---------------------------------------------------------------------
  // Sequences
  // ---------------------------------------------------------------------

  /** `b` is a reordering of `a`, as `random.shuffle` produces. */
  predicate IsPermutation<T(==)>(a: seq<T>, b: seq<T>)
  {
    multiset(a) == multiset(b)
  }

  /** A reordering has as many elements as the sequence it reorders. */
  lemma PermutationLength<T>(a: seq<T>, b: seq<T>)
    requires IsPermutation(a, b)
    ensures |a| == |b|
  {
    assert |multiset(a)| == |multiset(b)|;
  }

  /** No element occurs twice, as in any directory listing. Stated on the
      multiset so that it survives every reordering. */
  predicate Distinct<T(==,!new)>(s: seq<T>)
  {
    forall x :: x in s ==> multiset(s)[x] <= 1
  }

  /** The elements of `s` satisfying `p`, in their original order: a Python
      list comprehension with an `if` clause. */
  function Filter<T(==,!new)>(s: seq<T>, p: T -> bool): (r: seq<T>)
    ensures |r| <= |s|
    ensures forall x :: x in r <==> x in s && p(x)
    ensures forall i :: 0 <= i < |r| ==> p(r[i])
    ensures multiset(r) <= multiset(s)
  {
    if |s| == 0 then []
    else
      assert s == [s[0]] + s[1..];
      (if p(s[0]) then [s[0]] else []) + Filter(s[1..], p)
  }

  /** Filtering commutes with concatenation, so it keeps relative order. */
  lemma {:induction false} FilterConcat<T(!new)>(a: seq<T>, b: seq<T>, p: T -> bool)
    ensures Filter(a + b, p) == Filter(a, p) + Filter(b, p)
  {
    if |a| == 0 {
      assert a + b == b;
    } else {
      assert (a + b)[1..] == a[1..] + b;
      FilterConcat(a[1..], b, p);
    }
  }

  /** A sub-multiset of a repetition-free sequence is repetition-free. */
  lemma DistinctSub<T(!new)>(a: seq<T>, b: seq<T>)
    requires Distinct(b) && multiset(a) <= multiset(b)
    ensures Distinct(a)
  {
    forall x ensures multiset(a)[x] <= 1 {
      assert multiset(a)[x] <= multiset(b)[x];
    }
  }

  /** Two parts of a repetition-free sequence share no element. */
  lemma DisjointParts<T(!new)>(a: seq<T>, b: seq<T>, s: seq<T>)
    requires Distinct(s) && multiset(a) + multiset(b) <= multiset(s)
    ensures forall x :: x in a ==> x !in b
  {
    forall x | x in a
      ensures x !in b
    {
      assert multiset(a)[x] + multiset(b)[x] <= multiset(s)[x];
    }
  }

  /** Python's `s[i:j]` for non-negative bounds: both bounds are clamped to
      the length, and a reversed range is empty. */
  function PySlice<T>(s: seq<T>, i: nat, j: nat): (r: seq<T>)
    ensures i <= j <= |s| ==> r == s[i..j]
    ensures |r| == if Min(i, |s|) <= Min(j, |s|) then Min(j, |s|) - Min(i, |s|) else 0
  {
    var lo := Min(i, |s|);
    var hi := Min(j, |s|);
    if lo <= hi then s[lo..hi] else []
  }

  // ---------------------------------------------------------------------
  // Characters and strings
  // ---------------------------------------------------------------------

  /** `str.lower` on one character (ASCII letters only). */
  function LowerChar(c: char): char
  {
    if 'A' <= c <= 'Z' then (c as int + 32) as char else c
  }

  /** `str.lower`, character by character. */
  function Lower(s: string): (r: string)
    ensures |r| == |s|
    ensures forall i :: 0 <= i < |s| ==> r[i] == LowerChar(s[i])
  {
    seq(|s|, i requires 0 <= i < |s| => LowerChar(s[i]))
  }

  /** Lowercasing leaves no upper-case ASCII letter, so a second pass
      changes nothing. */
  lemma LowerIdempotent(s: string)
    ensures forall i :: 0 <= i < |s| ==> !('A' <= Lower(s)[i] <= 'Z')
    ensures Lower(Lower(s)) == Lower(s)
  {
  }

  /** Lowercasing works on each part of a concatenation separately. */
  lemma LowerConcat(a: string, b: string)
    ensures Lower(a + b) == Lower(a) + Lower(b)
  {
  }

  /** `s.startswith(prefix)`. */
  predicate StartsWith(s: string, prefix: string)
  {
    |prefix| <= |s| && s[..|prefix|] == prefix
  }

  /** `s.endswith(suffix)`. */
  predicate EndsWith(s: string, suffix: string)
  {
    |suffix| <= |s| && s[|s| - |suffix|..] == suffix
  }

  /** `s.rfind(c)`: the index of the last `c`, or -1. */
  function LastIndex(s: string, c: char): (r: int)
    ensures -1 <= r < |s|
    ensures r == -1 <==> c !in s
    ensures r >= 0 ==> s[r] == c && c !in s[r + 1..]
  {
    if |s| == 0 then -1
    else if s[|s| - 1] == c then |s| - 1
    else
      assert s == s[..|s| - 1] + [s[|s| - 1]];
      LastIndex(s[..|s| - 1], c)
  }

  /** The last occurrence is the one with no occurrence after it. */
  lemma LastIndexAt(s: string, c: char, k: int)
    requires 0 <= k < |s| && s[k] == c
    requires forall j :: k < j < |s| ==> s[j] != c
    ensures LastIndex(s, c) == k
  {
  }

  /** `PurePath(name).suffix` of a single path component: the part from the
      last dot, provided the dot is neither the first nor the last character. */
  function PathSuffix(name: string): string
  {
    var i := LastIndex(name, '.');
    if 0 < i < |name| - 1 then name[i..] else ""
  }

  /** A dot with a non-empty stem before it and a dot-free extension after
      it makes the extension, dot included, the suffix. */
  lemma PathSuffixOf(stem: string, ext: string)
    requires stem != [] && ext != [] && '.' !in ext
    ensures PathSuffix(stem + "." + ext) == "." + ext
  {
    var name := stem + "." + ext;
    forall j | |stem| < j < |name| ensures name[j] != '.' {
      assert name[j] == ext[j - |stem| - 1];
    }
    LastIndexAt(name, '.', |stem|);
    assert name[|stem|..] == "." + ext;
  }

  /** There is no suffix without a dot, with a trailing dot, or when the only
      dot starts the name. */
  lemma PathSuffixEmpty(name: string)
    ensures '.' !in name ==> PathSuffix(name) == ""
    ensures name != [] && name[|name| - 1] == '.' ==> PathSuffix(name) == ""
    ensures name != [] && name[0] == '.' && '.' !in name[1..] ==> PathSuffix(name) == ""
  {
    if name != [] && name[0] == '.' && '.' !in name[1..] {
      forall j | 0 < j < |name| ensures name[j] != '.' {
        assert name[j] == name[1..][j - 1];
      }
      LastIndexAt(name, '.', 0);
    }
  }

  /** Some character of `s` is not a dot. */
  predicate HasNonDot(s: string)
  {
    exists k :: 0 <= k < |s| && s[k] != '.'
  }

  /** `os.path.splitext(name)[0]` for a name without a separator: the name
      up to its last dot, unless everything before that dot is a dot. */
  function SplitExtRoot(name: string): (r: string)
    ensures |r| <= |name| && r == name[..|r|]
    ensures '.' !in name ==> r == name
  {
    var dot := LastIndex(name, '.');
    if dot > 0 && HasNonDot(name[..dot]) then name[..dot] else name
  }

  /** Removing the extension of `stem.ext` gives back the stem, whenever the
      extension has no dot and the stem is not made of dots alone. */
  lemma SplitExtRootOf(stem: string, ext: string)
    requires HasNonDot(stem) && '.' !in ext
    ensures SplitExtRoot(stem + "." + ext) == stem
  {
    var name := stem + "." + ext;
    forall j | |stem| < j < |name| ensures name[j] != '.' {
      assert name[j] == ext[j - |stem| - 1];
    }
    LastIndexAt(name, '.', |stem|);
    assert name[..|stem|] == stem;
  }

  /** `os.path.basename(path)`: everything after the last `/`. */
  function Basename(path: string): (r: string)
    ensures '/' !in r
    ensures EndsWith(path, r)
  {
    var i := LastIndex(path, '/');
    path[i + 1..]
  }

  /** The base name is the whole path, or it follows a `/`: a path with no
      separator is its own base name. */
  lemma BasenameAfterSlash(path: string)
    ensures Basename(path) == path || path[|path| - |Basename(path)| - 1] == '/'
    ensures '/' !in path ==> Basename(path) == path
  {
  }

  /** The base name of a path joined from a directory and an entry name is
      that entry name. */
  lemma BasenameOfJoin(dir: string, name: string)
    requires '/' !in name
    ensures Basename(dir + "/" + name) == name
  {
    var p := dir + "/" + name;
    forall j | |dir| < j < |p| ensures p[j] != '/' {
      assert p[j] == name[j - |dir| - 1];
    }
    LastIndexAt(p, '/', |dir|);
    assert p[|dir| + 1..] == name;
  }

  // ---------------------------------------------------------------------
  // str.strip()
  // ---------------------------------------------------------------------

  /** The characters Python's `str.isspace` accepts: tab to carriage
      return, U+001C to U+001F, the space, and the Unicode spaces and
      separators. */
  const SpaceChars: set<char> := {
    '\t', '\n', '\U{0B}', '\U{0C}', '\r', '\U{1C}', '\U{1D}', '\U{1E}', '\U{1F}', ' ',
    '\U{85}', '\U{A0}', '\U{1680}',
    '\U{2000}', '\U{2001}', '\U{2002}', '\U{2003}', '\U{2004}', '\U{2005}',
    '\U{2006}', '\U{2007}', '\U{2008}', '\U{2009}', '\U{200A}',
    '\U{2028}', '\U{2029}', '\U{202F}', '\U{205F}', '\U{3000}'}

  predicate IsSpace(c: char)
  {
    c in SpaceChars
  }

  predicate AllSpace(s: string)
  {
    forall i :: 0 <= i < |s| ==> IsSpace(s[i])
  }

  /** The number of whitespace characters `s` starts with. */
  function LeadingSpaces(s: string): (n: nat)
    ensures n <= |s| && AllSpace(s[..n])
    ensures n == |s| || !IsSpace(s[n])
  {
    if |s| > 0 && IsSpace(s[0]) then 1 + LeadingSpaces(s[1..]) else 0
  }

  /** The number of whitespace characters `s` ends with. */
  function TrailingSpaces(s: string): (n: nat)
    ensures n <= |s| && AllSpace(s[|s| - n..])
    ensures n == |s| || !IsSpace(s[|s| - n - 1])
  {
    if |s| > 0 && IsSpace(s[|s| - 1]) then 1 + TrailingSpaces(s[..|s| - 1]) else 0
  }

  /** Where the text `strip` keeps ends: before the whitespace run at the
      end, or at the end of the leading run when everything is whitespace. */
  function StripStop(s: string): (k: nat)
    ensures LeadingSpaces(s) <= k <= |s|
    ensures AllSpace(s[k..])
    ensures k == LeadingSpaces(s) || !IsSpace(s[k - 1])
  {
    var i, j := LeadingSpaces(s), TrailingSpaces(s);
    if i == |s| then i else |s| - j
  }

  /** `str.strip()`: the text between the leading and the trailing run of
      whitespace. */
  function Strip(s: string): (r: string)
    ensures r == [] <==> AllSpace(s)
    ensures Trimmed(r)
  {
    var i, k := LeadingSpaces(s), StripStop(s);
    assert (i == k) == AllSpace(s) by {
      if i == |s| {
        assert s[..i] == s;
      }
    }
    s[i..k]
  }

  /** What `strip` removes is whitespace, and only at the two ends: the
      result is the slice of the input after the leading whitespace, and
      everything after it is whitespace too. */
  lemma StripSlice(s: string)
    ensures LeadingSpaces(s) + |Strip(s)| <= |s|
    ensures AllSpace(s[..LeadingSpaces(s)])
    ensures Strip(s) == s[LeadingSpaces(s)..LeadingSpaces(s) + |Strip(s)|]
    ensures AllSpace(s[LeadingSpaces(s) + |Strip(s)|..])
  {
    var i, k := LeadingSpaces(s), StripStop(s);
    assert Strip(s) == s[i..k];
    assert i + |Strip(s)| == k;
  }

  predicate Trimmed(s: string)
  {
    s == [] || (!IsSpace(s[0]) && !IsSpace(s[|s| - 1]))
  }

  /** A string with no surrounding whitespace is left unchanged by `strip`. */
  lemma StripTrimmed(s: string)
    requires Trimmed(s)
    ensures Strip(s) == s
  {
  }

  // ---------------------------------------------------------------------
  // str(n) and its decoder
  // ---------------------------------------------------------------------

  predicate IsDigit(c: char)
  {
    '0' <= c <= '9'
  }

  predicate AllDigits(s: string)
  {
    forall i :: 0 <= i < |s| ==> IsDigit(s[i])
  }

  /** The value of a string of decimal digits. */
  function ParseDecimal(s: string): nat
    requires AllDigits(s)
  {
    if |s| == 0 then 0
    else 10 * ParseDecimal(s[..|s| - 1]) + (s[|s| - 1] as int - '0' as int)
  }

  /** `str(n)` for a non-negative integer, as an f-string renders it: the
      decimal digits of `n` with no leading zero. */
  function NatToString(n: nat): (r: string)
    ensures |r| >= 1 && AllDigits(r)
    ensures ParseDecimal(r) == n
    ensures r[0] == '0' <==> n == 0
    ensures n == 0 ==> r == "0"
  {
    var d := ('0' as int + n % 10) as char;
    if n < 10 then [d]
    else
      var r := NatToString(n / 10) + [d];
      assert r[..|r| - 1] == NatToString(n / 10);
      r
  }

  // ---------------------------------------------------------------------
  // repr() of a string and of a list of strings, and their decoders
  // ---------------------------------------------------------------------

  function HexDigit(d: nat): char
    requires d < 16
  {
    if d < 10 then ('0' as int + d) as char else ('a' as int + d - 10) as char
  }

  function HexValue(c: char): (r: Option<nat>)
    ensures r.Some? ==> r.value < 16
  {
    if '0' <= c <= '9' then Some(c as int - '0' as int)
    else if 'a' <= c <= 'f' then Some(c as int - 'a' as int + 10)
    else if 'A' <= c <= 'F' then Some(c as int - 'A' as int + 10)
    else None
  }

  /** The quote `repr` chooses: a double quote when the text holds a single
      quote and no double quote, a single quote otherwise. */
  function ReprQuote(s: string): (q: char)
    ensures q == '\'' || q == '"'
    ensures q == '"' ==> '"' !in s
    ensures '\'' in s && '"' !in s ==> q == '"'
    ensures '\'' !in s ==> q == '\''
  {
    if '\'' in s && '"' !in s then '"' else '\''
  }

  /** How `repr` writes one character inside quotes `q`: the quote and the
      backslash are escaped, tab, newline and carriage return get their
      letter escapes, other ASCII control characters a `\xNN` escape. */
  function EscapeChar(c: char, q: char): string
  {
    if c == q || c == '\\' then ['\\', c]
    else if c == '\t' then ['\\', 't']
    else if c == '\n' then ['\\', 'n']
    else if c == '\r' then ['\\', 'r']
    else if c as int < 0x20 || c as int == 0x7f then
      ['\\', 'x', HexDigit(c as int / 16), HexDigit(c as int % 16)]
    else [c]
  }

  function Escape(s: string, q: char): string
  {
    if |s| == 0 then [] else EscapeChar(s[0], q) + Escape(s[1..], q)
  }

  /** `repr(s)` for a string. */
  function PyRepr(s: string): string
  {
    var q := ReprQuote(s);
    [q] + Escape(s, q) + [q]
  }

  function JoinReprs(xs: seq<string>): string
  {
    if |xs| == 0 then ""
    else if |xs| == 1 then PyRepr(xs[0])
    else PyRepr(xs[0]) + ", " + JoinReprs(xs[1..])
  }

  /** `repr(xs)` (equally `str(xs)`) for a list of strings. */
  function PyListRepr(xs: seq<string>): string
  {
    "[" + JoinReprs(xs) + "]"
  }

  /** Reads one possibly escaped character from the front of a quoted body. */
  function ReadChar(t: string): (r: Option<(char, string)>)
    requires |t| > 0
    ensures r.Some? ==> |r.value.1| < |t|
  {
    if t[0] != '\\' then Some((t[0], t[1..]))
    else if |t| < 2 then None
    else if t[1] == '\\' || t[1] == '\'' || t[1] == '"' then Some((t[1], t[2..]))
    else if t[1] == 't' then Some(('\t', t[2..]))
    else if t[1] == 'n' then Some(('\n', t[2..]))
    else if t[1] == 'r' then Some(('\r', t[2..]))
    else if t[1] == 'x' && |t| >= 4 && HexValue(t[2]).Some? && HexValue(t[3]).Some? then
      Some(((HexValue(t[2]).value * 16 + HexValue(t[3]).value) as char, t[4..]))
    else None
  }

  /** Decodes a quoted body up to its closing quote `q`, returning the text
      and what follows the quote. */
  function ReadQuoted(t: string, q: char): (r: Option<(string, string)>)
    ensures r.Some? ==> |r.value.1| < |t|
    decreases |t|
  {
    if |t| == 0 then None
    else if t[0] == q then Some(([], t[1..]))
    else
      match ReadChar(t)
      case None => None
      case Some((c, rest)) =>
        match ReadQuoted(rest, q)
        case None => None
        case Some((s, after)) => Some(([c] + s, after))
  }

  /** Decodes a string literal written by `repr`. */
  function ParseStr(t: string): (r: Option<(string, string)>)
    ensures r.Some? ==> |r.value.1| < |t|
  {
    if |t| > 0 && (t[0] == '\'' || t[0] == '"') then ReadQuoted(t[1..], t[0]) else None
  }

  /** Decodes the items of a non-empty list literal and its closing bracket. */
  function ParseItems(t: string): Option<seq<string>>
    decreases |t|
  {
    match ParseStr(t)
    case None => None
    case Some((s, rest)) =>
      if rest == "]" then Some([s])
      else if |rest| >= 2 && rest[..2] == ", " then
        match ParseItems(rest[2..])
        case None => None
        case Some(xs) => Some([s] + xs)
      else None
  }

  /** Decodes a list of strings written by `repr`. */
  function ParseList(t: string): Option<seq<string>>
  {
    if t == "[]" then Some([])
    else if |t| > 0 && t[0] == '[' then ParseItems(t[1..])
    else None
  }

  lemma ReadEscapedChar(c: char, q: char, rest: string)
    requires q == '\'' || q == '"'
    ensures EscapeChar(c, q) != [] && EscapeChar(c, q)[0] != q
    ensures ReadChar(EscapeChar(c, q) + rest) == Some((c, rest))
  {
    var e := EscapeChar(c, q);
    var t := e + rest;
    if c as int < 0x20 || c as int == 0x7f {
      if c != '\t' && c != '\n' && c != '\r' {
        var hi := c as int / 16;
        var lo := c as int % 16;
        assert t[2] == HexDigit(hi) && t[3] == HexDigit(lo);
        assert HexValue(t[2]) == Some(hi);
        assert HexValue(t[3]) == Some(lo);
        assert t[4..] == rest;
      }
    }
    if |e| == 1 {
      assert t[1..] == rest;
    } else {
      assert |e| == 2 ==> t[2..] == rest;
    }
  }

  /** One decoded character followed by a decodable rest. */
  lemma ReadQuotedStep(t: string, q: char, c: char, more: string, s: string, rest: string)
    requires |t| > 0 && t[0] != q
    requires ReadChar(t) == Some((c, more))
    requires ReadQuoted(more, q) == Some((s, rest))
    ensures ReadQuoted(t, q) == Some(([c] + s, rest))
  {
  }

  /** Every string is recovered from its escaped form. */
  lemma {:induction false} ReadQuotedEscape(s: string, q: char, rest: string)
    requires q == '\'' || q == '"'
    ensures ReadQuoted(Escape(s, q) + [q] + rest, q) == Some((s, rest))
  {
    if |s| == 0 {
      assert Escape(s, q) + [q] + rest == [q] + rest;
    } else {
      var more := Escape(s[1..], q) + [q] + rest;
      var t := EscapeChar(s[0], q) + more;
      assert Escape(s, q) + [q] + rest == t;
      ReadEscapedChar(s[0], q, more);
      ReadQuotedEscape(s[1..], q, rest);
      ReadQuotedStep(t, q, s[0], more, s[1..], rest);
      assert [s[0]] + s[1..] == s;
    }
  }

  /** A string literal written by `repr` decodes to the original string. */
  lemma ParseStrRepr(s: string, rest: string)
    ensures ParseStr(PyRepr(s) + rest) == Some((s, rest))
  {
    var q := ReprQuote(s);
    assert PyRepr(s) + rest == [q] + (Escape(s, q) + [q] + rest);
    ReadQuotedEscape(s, q, rest);
  }

  /** One decoded item followed by `, ` and decodable further items. */
  lemma ParseItemsStep(t: string, s: string, tail: string, xs: seq<string>)
    requires ParseStr(t) == Some((s, ", " + tail))
    requires ParseItems(tail) == Some(xs)
    ensures ParseItems(t) == Some([s] + xs)
  {
    var rest := ", " + tail;
    assert rest != "]" && rest[..2] == ", " && rest[2..] == tail;
  }

  lemma {:induction false} ParseItemsJoin(xs: seq<string>)
    requires |xs| > 0
    ensures ParseItems(JoinReprs(xs) + "]") == Some(xs)
  {
    if |xs| == 1 {
      assert JoinReprs(xs) == PyRepr(xs[0]);
      ParseStrRepr(xs[0], "]");
      assert [xs[0]] == xs;
    } else {
      var tail := JoinReprs(xs[1..]) + "]";
      assert JoinReprs(xs) + "]" == PyRepr(xs[0]) + (", " + tail);
      ParseStrRepr(xs[0], ", " + tail);
      ParseItemsJoin(xs[1..]);
      ParseItemsStep(PyRepr(xs[0]) + (", " + tail), xs[0], tail, xs[1..]);
      assert [xs[0]] + xs[1..] == xs;
    }
  }

  /** The list literal `repr` writes decodes to the same names in the same
      order. */
  lemma ParseListRepr(xs: seq<string>)
    ensures ParseList(PyListRepr(xs)) == Some(xs)
  {
    if |xs| > 0 {
      ParseItemsJoin(xs);
      assert PyListRepr(xs)[1..] == JoinReprs(xs) + "]";
      assert |PyRepr(xs[0])| >= 2;
      assert PyListRepr(xs) != "[]";
    }
  }
}

=== FILE: detection_split.dfy ===
/** The detection (YOLO layout) splitter: selection of the image files,
    the train/valid/test partition of a shuffled list, the image and label
    copies, the output folders, the `data.yaml` manifest, and the checks the
    page makes before it calls the splitter.

    The directory listing of `<source>/images`, the names present in
    `<source>/labels` and the shuffled order are inputs; every copy and every
    created folder is an element of the returned plan. */
module DetectionSplit {
  import opened Common
  import opened Ratios

  // ---------------------------------------------------------------------
  // Image selection
  // ---------------------------------------------------------------------

  /** The selection test of the splitter: the lowercased name ends with
      `.jpg`, `.png` or `jpeg`. The last ending carries no dot. */
  predicate IsImageName(f: string)
  {
    var l := Lower(f);
    EndsWith(l, ".jpg") || EndsWith(l, ".png") || EndsWith(l, "jpeg")
  }

  /** The images of a listing of `<source>/images`, in listing order. */
  function ImageFiles(listing: seq<string>): (r: seq<string>)
    ensures forall f :: f in r <==> f in listing && IsImageName(f)
    ensures multiset(r) <= multiset(listing)
  {
    Filter(listing, IsImageName)
  }

  /** Because `jpeg` is matched without a dot, any name ending in those
      four letters is selected, with or without an extension. */
  lemma AnyJpegEndingSelected(stem: string)
    ensures IsImageName(stem + "jpeg") && IsImageName(stem + "JPEG")
  {
    var l := Lower(stem + "JPEG");
    assert l[|l| - 4..] == "jpeg";
    assert Lower(stem + "jpeg")[|stem| + 4 - 4..] == "jpeg";
  }

  // ---------------------------------------------------------------------
  // Partition
  // ---------------------------------------------------------------------

  datatype Partition = Partition(train: seq<string>, val: seq<string>, test: seq<string>)

  /** `n_train = int(train_ratio * n)`, `n_val = int(val_ratio * n)`, then
      three consecutive slices of the shuffled list; the third is taken only
      when the test ratio is positive. Slices clamp at the end of the list,
      so ratios summing slightly above one shorten the validation part. */
  function PartitionFiles(shuffled: seq<string>, train: Ratio, val: Ratio, test: Ratio): (p: Partition)
    ensures |p.train| == ScaledFloor(train, |shuffled|)
    ensures |p.val| == Min(ScaledFloor(val, |shuffled|), |shuffled| - |p.train|)
    ensures |p.train| + |p.val| + |p.test| <= |shuffled|
    ensures p.train + p.val + p.test == shuffled[..|p.train| + |p.val| + |p.test|]
    ensures test > 0.0 ==> p.train + p.val + p.test == shuffled
    ensures test == 0.0 ==> p.test == []
  {
    var n := |shuffled|;
    var nTrain := ScaledFloor(train, n);
    var nVal := ScaledFloor(val, n);
    var k := Min(nTrain + nVal, n);
    var trainPart := PySlice(shuffled, 0, nTrain);
    var valPart := PySlice(shuffled, nTrain, nTrain + nVal);
    var testPart := if test > 0.0 then PySlice(shuffled, nTrain + nVal, n) else [];
    assert trainPart == shuffled[..nTrain];
    assert valPart == shuffled[nTrain..k];
    assert test > 0.0 ==> testPart == shuffled[k..];
    assert trainPart + valPart == shuffled[..k];
    assert shuffled[..k] + shuffled[k..] == shuffled;
    Partition(trainPart, valPart, testPart)
  }

  /** No file is in two parts, and every part is drawn from the shuffled
      list; with a positive test ratio the parts use up the list exactly. */
  lemma {:induction false} PartitionDisjoint(shuffled: seq<string>, train: Ratio, val: Ratio, test: Ratio)
    requires Distinct(shuffled)
    ensures var p := PartitionFiles(shuffled, train, val, test);
      && (forall f :: f in p.train ==> f !in p.val && f !in p.test)
      && (forall f :: f in p.val ==> f !in p.test)
      && multiset(p.train) + multiset(p.val) + multiset(p.test) <= multiset(shuffled)
      && (test > 0.0 ==> multiset(p.train) + multiset(p.val) + multiset(p.test) == multiset(shuffled))
  {
    var p := PartitionFiles(shuffled, train, val, test);
    var k := |p.train| + |p.val| + |p.test|;
    assert shuffled == shuffled[..k] + shuffled[k..];
    assert multiset(shuffled) == multiset(shuffled[..k]) + multiset(shuffled[k..]);
    assert multiset(p.train + p.val + p.test) == multiset(p.train) + multiset(p.val) + multiset(p.test);
    DisjointParts(p.train, p.val + p.test, shuffled);
    DisjointParts(p.val, p.test, shuffled);
  }

  /** With a zero test ratio, the files behind the first `n_train + n_val`
      are copied nowhere. */
  lemma ZeroTestDropsTail(shuffled: seq<string>, train: Ratio, val: Ratio, f: string)
    requires Distinct(shuffled)
    requires f in shuffled[Min(ScaledFloor(train, |shuffled|) + ScaledFloor(val, |shuffled|), |shuffled|)..]
    ensures var p := PartitionFiles(shuffled, train, val, 0.0);
      f !in p.train && f !in p.val && f !in p.test
  {
    var p := PartitionFiles(shuffled, train, val, 0.0);
    var k := |p.train| + |p.val|;
    assert shuffled == (p.train + p.val) + shuffled[k..];
    DisjointParts(p.train + p.val, shuffled[k..], shuffled);
  }

  /** Ten files split 0.7 / 0.2 / 0.1 give 7, 2 and 1 files. */
  lemma TenFilesSevenTwoOne(shuffled: seq<string>)
    requires |shuffled| == 10
    ensures var p := PartitionFiles(shuffled, 0.7, 0.2, 0.1);
      |p.train| == 7 && |p.val| == 2 && |p.test| == 1
  {
  }

  /** Three files split 0.5 / 0.5 / 0.0 put one file in each of train and
      valid and drop the third. */
  lemma ThreeFilesDropOne(shuffled: seq<string>)
    requires |shuffled| == 3
    ensures var p := PartitionFiles(shuffled, 0.5, 0.5, 0.0);
      |p.train| == 1 && |p.val| == 1 && |p.test| == 0
  {
  }

  // ---------------------------------------------------------------------
  // Copies
  // ---------------------------------------------------------------------

  datatype Split = Train | Valid | Test

  /** Folder name of a split under the destination. */
  function SplitDir(s: Split): string
  {
    match s
    case Train => "train"
    case Valid => "valid"
    case Test => "test"
  }

  datatype Kind = Images | Labels

  /** One `shutil.copy`: `<source>/<kind>/<name>` to `<dest>/<split>/<kind>/<name>`. */
  datatype Copy = Copy(kind: Kind, split: Split, name: string)

  /** The label of an image: its name with the last extension replaced by `.txt`. */
  function LabelName(image: string): (r: string)
    ensures EndsWith(r, ".txt")
  {
    var r := SplitExtRoot(image) + ".txt";
    assert r[|r| - 4..] == ".txt";
    r
  }

  /** `stem.ext` is labelled by `stem.txt`. */
  lemma LabelNameReplacesExtension(stem: string, ext: string)
    requires HasNonDot(stem) && '.' !in ext
    ensures LabelName(stem + "." + ext) == stem + ".txt"
  {
    SplitExtRootOf(stem, ext);
  }

  /** The copies for one image: the image when it exists, then its label
      when that exists. */
  function CopiesFor(f: string, split: Split, images: set<string>, labels: set<string>): seq<Copy>
  {
    (if f in images then [Copy(Images, split, f)] else [])
    + (if LabelName(f) in labels then [Copy(Labels, split, LabelName(f))] else [])
  }

  /** The names of the image copies of a plan, in plan order. */
  function ImagesCopied(cs: seq<Copy>): seq<string>
  {
    if |cs| == 0 then []
    else (if cs[0].kind == Images then [cs[0].name] else []) + ImagesCopied(cs[1..])
  }

  lemma {:induction false} ImagesCopiedConcat(a: seq<Copy>, b: seq<Copy>)
    ensures ImagesCopied(a + b) == ImagesCopied(a) + ImagesCopied(b)
  {
    if |a| == 0 {
      assert a + b == b;
    } else {
      var h := if a[0].kind == Images then [a[0].name] else [];
      assert (a + b)[0] == a[0] && (a + b)[1..] == a[1..] + b;
      assert ImagesCopied(a + b) == h + ImagesCopied(a[1..] + b);
      ImagesCopiedConcat(a[1..], b);
      assert h + (ImagesCopied(a[1..]) + ImagesCopied(b)) == (h + ImagesCopied(a[1..])) + ImagesCopied(b);
    }
  }

  /** The label names of a list of images, in order. */
  function LabelNames(files: seq<string>): (r: seq<string>)
    ensures |r| == |files|
    ensures forall i :: 0 <= i < |files| ==> r[i] == LabelName(files[i])
  {
    seq(|files|, i requires 0 <= i < |files| => LabelName(files[i]))
  }

  /** The copies for one image copy that image exactly when it exists. */
  lemma ImagesCopiedFor(f: string, split: Split, images: set<string>, labels: set<string>)
    ensures ImagesCopied(CopiesFor(f, split, images, labels)) == if f in images then [f] else []
  {
    var img: seq<Copy> := if f in images then [Copy(Images, split, f)] else [];
    var lbl: seq<Copy> := if LabelName(f) in labels then [Copy(Labels, split, LabelName(f))] else [];
    ImagesCopiedConcat(img, lbl);
    assert ImagesCopied(lbl) == [] by {
      if LabelName(f) in labels {
        assert lbl[1..] == [];
      }
    }
    if f in images {
      assert img[1..] == [];
    }
  }

  /** `move_files`: for each image of the list, in order, the image is
      copied into the split's image folder when it exists and its label
      into the split's label folder when that exists. */
  function MoveFiles(files: seq<string>, split: Split, images: set<string>, labels: set<string>): (r: seq<Copy>)
    ensures forall c :: c in r ==> c.split == split
  {
    if |files| == 0 then []
    else CopiesFor(files[0], split, images, labels) + MoveFiles(files[1..], split, images, labels)
  }

  /** When every listed image exists, the images copied are the list, in
      order, whichever labels exist. */
  lemma {:induction false} MoveFilesImages(files: seq<string>, split: Split, images: set<string>, labels: set<string>)
    requires forall f :: f in files ==> f in images
    ensures ImagesCopied(MoveFiles(files, split, images, labels)) == files
  {
    if |files| > 0 {
      var head := CopiesFor(files[0], split, images, labels);
      assert files[0] in images;
      ImagesCopiedFor(files[0], split, images, labels);
      MoveFilesImages(files[1..], split, images, labels);
      ImagesCopiedConcat(head, MoveFiles(files[1..], split, images, labels));
      assert files == [files[0]] + files[1..];
    }
  }

  /** The only label the copies for one image hold is its existing label. */
  lemma HeadLabelCopies(f: string, split: Split, images: set<string>, labels: set<string>)
    ensures forall c :: c in CopiesFor(f, split, images, labels) && c.kind == Labels ==>
              c.name == LabelName(f) && LabelName(f) in labels
  {
  }

  /** Only existing labels of listed images are copied. */
  lemma {:induction false} MoveFilesLabelsExist(files: seq<string>, split: Split, images: set<string>, labels: set<string>)
    ensures forall c :: c in MoveFiles(files, split, images, labels) && c.kind == Labels ==>
              c.name in labels && c.name in LabelNames(files)
  {
    if |files| > 0 {
      var f := files[0];
      MoveFilesLabelsExist(files[1..], split, images, labels);
      HeadLabelCopies(f, split, images, labels);
      assert LabelNames(files)[0] == LabelName(f);
      assert LabelNames(files)[1..] == LabelNames(files[1..]);
    }
  }

  /** The label of every listed image is copied when it exists. */
  lemma {:induction false} MoveFilesLabelsCopied(files: seq<string>, split: Split, images: set<string>, labels: set<string>)
    ensures forall f :: f in files && LabelName(f) in labels ==>
              Copy(Labels, split, LabelName(f)) in MoveFiles(files, split, images, labels)
  {
    if |files| > 0 {
      MoveFilesLabelsCopied(files[1..], split, images, labels);
      assert forall f :: f in files <==> f == files[0] || f in files[1..];
    }
  }

  // ---------------------------------------------------------------------
  // Output folders and data.yaml
  // ---------------------------------------------------------------------

  /** A created folder `<dest>/<split>/<kind>`. */
  datatype OutDir = OutDir(split: Split, kind: Kind)

  /** The folders `split_dataset` creates: train and valid always, test only
      for a positive test ratio. */
  function CreatedDirs(test: Ratio): (ds: seq<OutDir>)
    ensures forall d :: d in ds <==> d.split != Test || test > 0.0
  {
    var ds := [OutDir(Train, Images), OutDir(Train, Labels), OutDir(Valid, Images), OutDir(Valid, Labels)]
              + (if test > 0.0 then [OutDir(Test, Images), OutDir(Test, Labels)] else []);
    assert forall d: OutDir :: d.split != Test || test > 0.0 ==> d in ds by {
      forall d: OutDir | d.split != Test || test > 0.0 ensures d in ds {
        var i := match d.split
          case Train => 0
          case Valid => 2
          case Test => 4;
        var j := if d.kind == Images then i else i + 1;
        assert ds[j] == d;
      }
    }
    ds
  }

  /** The value of the first `key: value` line of a manifest, as a YAML
      reader sees it; the `names` value is kept as the text of a Python list
      literal. */
  function Lookup(lines: seq<string>, key: string): Option<string>
  {
    if |lines| == 0 then None
    else if StartsWith(lines[0], key + ": ") then Some(lines[0][|key| + 2..])
    else Lookup(lines[1..], key)
  }

  lemma LookupFirst(line: string, rest: seq<string>, key: string, value: string)
    requires line == key + ": " + value
    ensures Lookup([line] + rest, key) == Some(value)
  {
    assert line[..|key| + 2] == key + ": ";
    assert line[|key| + 2..] == value;
  }

  lemma LookupSkip(line: string, rest: seq<string>, key: string)
    requires !StartsWith(line, key + ": ")
    ensures Lookup([line] + rest, key) == Lookup(rest, key)
  {
    assert ([line] + rest)[1..] == rest;
  }

  /** The lines of `data.yaml` with the class count and the class-name list
      already rendered. */
  function ManifestLines(dest: string, nc: string, names: string, testEnabled: bool): seq<string>
  {
    ["train: " + dest + "/train/images"]
    + (["val: " + dest + "/valid/images"]
    + ((if testEnabled then ["test: " + dest + "/test/images"] else [])
    + ([""]
    + (["nc: " + nc]
    + ["names: " + names]))))
  }

  lemma ManifestFront(dest: string, nc: string, names: string, testEnabled: bool)
    ensures var lines := ManifestLines(dest, nc, names, testEnabled);
      && Lookup(lines, "train") == Some(dest + "/train/images")
      && Lookup(lines, "val") == Some(dest + "/valid/images")
  {
    var trainLine := "train: " + dest + "/train/images";
    var valLine := "val: " + dest + "/valid/images";
    var l2 := (if testEnabled then ["test: " + dest + "/test/images"] else [])
              + ([""] + (["nc: " + nc] + ["names: " + names]));
    var l1 := [valLine] + l2;
    assert ManifestLines(dest, nc, names, testEnabled) == [trainLine] + l1;
    assert trainLine[0] == 't';
    LookupFirst(trainLine, l1, "train", dest + "/train/images");
    LookupSkip(trainLine, l1, "val");
    LookupFirst(valLine, l2, "val", dest + "/valid/images");
  }

  /** Lookups of the keys after the folder lines skip the train and valid lines. */
  lemma ManifestSkipFolders(dest: string, nc: string, names: string, testEnabled: bool, key: string)
    requires key == "test" || key == "nc" || key == "names"
    ensures var l2 := (if testEnabled then ["test: " + dest + "/test/images"] else [])
                      + ([""] + (["nc: " + nc] + ["names: " + names]));
      Lookup(ManifestLines(dest, nc, names, testEnabled), key) == Lookup(l2, key)
  {
    var trainLine := "train: " + dest + "/train/images";
    var valLine := "val: " + dest + "/valid/images";
    var l2 := (if testEnabled then ["test: " + dest + "/test/images"] else [])
              + ([""] + (["nc: " + nc] + ["names: " + names]));
    var l1 := [valLine] + l2;
    assert ManifestLines(dest, nc, names, testEnabled) == [trainLine] + l1;
    assert trainLine[1] == 'r' && valLine[0] == 'v';
    LookupSkip(trainLine, l1, key);
    LookupSkip(valLine, l2, key);
  }

  lemma ManifestTest(dest: string, nc: string, names: string, testEnabled: bool)
    ensures Lookup(ManifestLines(dest, nc, names, testEnabled), "test")
            == if testEnabled then Some(dest + "/test/images") else None
  {
    ManifestSkipFolders(dest, nc, names, testEnabled, "test");
    var l3 := [""] + (["nc: " + nc] + ["names: " + names]);
    if testEnabled {
      LookupFirst("test: " + dest + "/test/images", l3, "test", dest + "/test/images");
    } else {
      assert [] + l3 == l3;
      TailHasNoTest(nc, names);
    }
  }

  /** No line after the folder lines has the key `test`. */
  lemma TailHasNoTest(nc: string, names: string)
    ensures Lookup([""] + (["nc: " + nc] + ["names: " + names]), "test") == None
  {
    var ncLine := "nc: " + nc;
    var namesLine := "names: " + names;
    assert ncLine[0] == 'n' && namesLine[0] == 'n';
    LookupSkip("", [ncLine] + [namesLine], "test");
    LookupSkip(ncLine, [namesLine], "test");
    LookupSkip(namesLine, [], "test");
    assert [namesLine] + [] == [namesLine];
  }

  /** The last three lines give the class count and the class names. */
  lemma ManifestTail(nc: string, names: string)
    ensures var l3 := [""] + (["nc: " + nc] + ["names: " + names]);
      Lookup(l3, "nc") == Some(nc) && Lookup(l3, "names") == Some(names)
  {
    var ncLine := "nc: " + nc;
    var namesLine := "names: " + names;
    assert ncLine[1] == 'c';
    LookupSkip("", [ncLine] + [namesLine], "nc");
    LookupSkip("", [ncLine] + [namesLine], "names");
    LookupFirst(ncLine, [namesLine], "nc", nc);
    LookupSkip(ncLine, [namesLine], "names");
    LookupFirst(namesLine, [], "names", names);
    assert [namesLine] + [] == [namesLine];
  }

  /** The test line, when there is one, is skipped by the later keys. */
  lemma ManifestSkipTest(dest: string, testEnabled: bool, rest: seq<string>, key: string)
    requires key == "nc" || key == "names"
    ensures Lookup((if testEnabled then ["test: " + dest + "/test/images"] else []) + rest, key)
            == Lookup(rest, key)
  {
    var testLine := "test: " + dest + "/test/images";
    assert testLine[0] == 't';
    if testEnabled {
      LookupSkip(testLine, rest, key);
    } else {
      assert [] + rest == rest;
    }
  }

  lemma ManifestCounts(dest: string, nc: string, names: string, testEnabled: bool)
    ensures var lines := ManifestLines(dest, nc, names, testEnabled);
      Lookup(lines, "nc") == Some(nc) && Lookup(lines, "names") == Some(names)
  {
    var l3 := [""] + (["nc: " + nc] + ["names: " + names]);
    ManifestSkipFolders(dest, nc, names, testEnabled, "nc");
    ManifestSkipFolders(dest, nc, names, testEnabled, "names");
    ManifestSkipTest(dest, testEnabled, l3, "nc");
    ManifestSkipTest(dest, testEnabled, l3, "names");
    ManifestTail(nc, names);
  }

  /** The lines of `data.yaml`: the train and valid image folders, the test
      image folder only for a positive test ratio, a blank line, the class
      count and the class-name list. Read back, the count is the number of
      names and the list gives the names in their order. */
  function DataYaml(dest: string, classNames: seq<string>, test: Ratio): (lines: seq<string>)
    ensures Lookup(lines, "train") == Some(dest + "/train/images")
    ensures Lookup(lines, "val") == Some(dest + "/valid/images")
    ensures Lookup(lines, "test") == if test > 0.0 then Some(dest + "/test/images") else None
    ensures var nc := Lookup(lines, "nc");
      nc.Some? && AllDigits(nc.value) && ParseDecimal(nc.value) == |classNames|
    ensures var names := Lookup(lines, "names");
      names.Some? && ParseList(names.value) == Some(classNames)
  {
    ManifestFront(dest, NatToString(|classNames|), PyListRepr(classNames), test > 0.0);
    ManifestTest(dest, NatToString(|classNames|), PyListRepr(classNames), test > 0.0);
    ManifestCounts(dest, NatToString(|classNames|), PyListRepr(classNames), test > 0.0);
    ParseListRepr(classNames);
    ManifestLines(dest, NatToString(|classNames|), PyListRepr(classNames), test > 0.0)
  }

  // ---------------------------------------------------------------------
  // split_dataset
  // ---------------------------------------------------------------------

  /** What one call of `split_dataset` does and returns. */
  datatype Outcome = Outcome(partition: Partition, dirs: seq<OutDir>, copies: seq<Copy>, yaml: seq<string>)
  {
    /** The returned `(len(train_files), len(val_files), len(test_files))`. */
    function Counts(): (nat, nat, nat)
    {
      (|partition.train|, |partition.val|, |partition.test|)
    }
  }

  /** The part of a partition that is copied into a split. */
  function Part(p: Partition, s: Split): seq<string>
  {
    match s
    case Train => p.train
    case Valid => p.val
    case Test => p.test
  }

  /** The three `move_files` calls of `split_dataset`: the train part into train, the valid
      part into valid, and the test part into test only for a positive test
      ratio. Its image copies are the three parts in order. */
  function MoveParts(p: Partition, test: Ratio, images: set<string>, labels: set<string>): (cs: seq<Copy>)
    requires forall f :: f in p.train + p.val + p.test ==> f in images
    requires test == 0.0 ==> p.test == []
    ensures ImagesCopied(cs) == p.train + p.val + p.test
    ensures forall c :: c in cs && c.split == Test ==> test > 0.0
    ensures forall c :: c in cs && c.kind == Labels ==>
              c.name in labels && c.name in LabelNames(Part(p, c.split))
    ensures forall sp, f :: f in Part(p, sp) && LabelName(f) in labels ==>
              Copy(Labels, sp, LabelName(f)) in cs
  {
    var trainCopies := MoveFiles(p.train, Train, images, labels);
    var valCopies := MoveFiles(p.val, Valid, images, labels);
    var testCopies := if test > 0.0 then MoveFiles(p.test, Test, images, labels) else [];
    assert testCopies == MoveFiles(p.test, Test, images, labels);
    PartLabelCopies(p, trainCopies, valCopies, testCopies, images, labels);
    MoveFilesImages(p.train, Train, images, labels);
    MoveFilesImages(p.val, Valid, images, labels);
    MoveFilesImages(p.test, Test, images, labels);
    ImagesCopiedConcat(trainCopies, valCopies);
    ImagesCopiedConcat(trainCopies + valCopies, testCopies);
    trainCopies + valCopies + testCopies
  }

  /** The labels `move_files` copies for one part are the existing labels
      of that part's images, all into the part's split. */
  lemma MovePartsLabels(p: Partition, sp: Split, images: set<string>, labels: set<string>)
    ensures forall c :: c in MoveFiles(Part(p, sp), sp, images, labels) && c.kind == Labels ==>
              c.name in labels && c.name in LabelNames(Part(p, sp))
    ensures forall f :: f in Part(p, sp) && LabelName(f) in labels ==>
              Copy(Labels, sp, LabelName(f)) in MoveFiles(Part(p, sp), sp, images, labels)
  {
    MoveFilesLabelsExist(Part(p, sp), sp, images, labels);
    MoveFilesLabelsCopied(Part(p, sp), sp, images, labels);
  }

  /** The label copies of the three `move_files` calls, joined: each is an
      existing label of an image of the part for its split, and every
      existing label of a part's image is copied into that part's split. */
  lemma PartLabelCopies(p: Partition, trainCopies: seq<Copy>, valCopies: seq<Copy>, testCopies: seq<Copy>,
                        images: set<string>, labels: set<string>)
    requires trainCopies == MoveFiles(p.train, Train, images, labels)
    requires valCopies == MoveFiles(p.val, Valid, images, labels)
    requires testCopies == MoveFiles(p.test, Test, images, labels)
    ensures forall c :: c in trainCopies + valCopies + testCopies && c.kind == Labels ==>
              c.name in labels && c.name in LabelNames(Part(p, c.split))
    ensures forall sp, f :: f in Part(p, sp) && LabelName(f) in labels ==>
              Copy(Labels, sp, LabelName(f)) in trainCopies + valCopies + testCopies
  {
    var all := trainCopies + valCopies + testCopies;
    MovePartsLabels(p, Train, images, labels);
    MovePartsLabels(p, Valid, images, labels);
    MovePartsLabels(p, Test, images, labels);
    forall c | c in all && c.kind == Labels
      ensures c.name in labels && c.name in LabelNames(Part(p, c.split))
    {
      if c in trainCopies {
        assert c.split == Train;
      } else if c in valCopies {
        assert c.split == Valid;
      } else {
        assert c in testCopies && c.split == Test;
      }
    }
    forall sp, f | f in Part(p, sp) && LabelName(f) in labels
      ensures Copy(Labels, sp, LabelName(f)) in all
    {
      var c := Copy(Labels, sp, LabelName(f));
      match sp
      case Train => assert c in trainCopies;
      case Valid => assert c in valCopies;
      case Test => assert c in testCopies;
    }
  }

  /** `split_dataset` on a listing of `<source>/images`, its shuffled image
      list, and the names present in `<source>/labels`. The image copies are
      exactly the three parts in order; with a positive test ratio every
      selected image is copied once and the counts add up to the number of
      images, and with a zero test ratio nothing goes to a test folder. */
  function SplitDataset(listing: seq<string>, shuffled: seq<string>, labels: set<string>,
                        dest: string, train: Ratio, val: Ratio, test: Ratio,
                        classNames: seq<string>): (r: Outcome)
    requires IsPermutation(shuffled, ImageFiles(listing))
    ensures r.partition == PartitionFiles(shuffled, train, val, test)
    ensures r.dirs == CreatedDirs(test) && r.yaml == DataYaml(dest, classNames, test)
    ensures ImagesCopied(r.copies) == r.partition.train + r.partition.val + r.partition.test
    ensures forall c :: c in r.copies && c.split == Test ==> test > 0.0
    ensures test > 0.0 ==> multiset(ImagesCopied(r.copies)) == multiset(ImageFiles(listing))
    ensures test > 0.0 ==> r.Counts().0 + r.Counts().1 + r.Counts().2 == |ImageFiles(listing)|
    ensures r.Counts().0 + r.Counts().1 + r.Counts().2 <= |ImageFiles(listing)|
    ensures forall c :: c in r.copies && c.kind == Labels ==>
              c.name in labels && c.name in LabelNames(Part(r.partition, c.split))
    ensures forall sp, f :: f in Part(r.partition, sp) && LabelName(f) in labels ==>
              Copy(Labels, sp, LabelName(f)) in r.copies
  {
    var images := set f | f in listing;
    var p := PartitionFiles(shuffled, train, val, test);
    PartsFromListing(listing, shuffled, p);
    Outcome(p, CreatedDirs(test), MoveParts(p, test, images, labels), DataYaml(dest, classNames, test))
  }

  /** Every file of a part is a file of the listing. */
  lemma PartsFromListing(listing: seq<string>, shuffled: seq<string>, p: Partition)
    requires IsPermutation(shuffled, ImageFiles(listing))
    requires |p.train| + |p.val| + |p.test| <= |shuffled|
    requires p.train + p.val + p.test == shuffled[..|p.train| + |p.val| + |p.test|]
    ensures forall f :: f in p.train + p.val + p.test ==> f in listing
    ensures |shuffled| == |ImageFiles(listing)|
  {
    var k := |p.train| + |p.val| + |p.test|;
    forall f | f in p.train + p.val + p.test ensures f in listing {
      assert f in shuffled[..k];
      assert f in multiset(shuffled);
      assert f in ImageFiles(listing);
    }
    PermutationLength(shuffled, ImageFiles(listing));
  }

  /** Neither the images copied nor the counts a split returns depend on
      which labels exist. */
  lemma CountsIgnoreLabels(listing: seq<string>, shuffled: seq<string>, labels1: set<string>, labels2: set<string>,
                           dest: string, train: Ratio, val: Ratio, test: Ratio, classNames: seq<string>)
    requires IsPermutation(shuffled, ImageFiles(listing))
    ensures ImagesCopied(SplitDataset(listing, shuffled, labels1, dest, train, val, test, classNames).copies)
         == ImagesCopied(SplitDataset(listing, shuffled, labels2, dest, train, val, test, classNames).copies)
    ensures SplitDataset(listing, shuffled, labels1, dest, train, val, test, classNames).Counts()
         == SplitDataset(listing, shuffled, labels2, dest, train, val, test, classNames).Counts()
  {
  }

  // ---------------------------------------------------------------------
  // The page's checks before the split
  // ---------------------------------------------------------------------

  /** `[f(x) for x in xs if f(x)]` for a string function `f`. */
  function MapNonEmpty(f: string -> string, xs: seq<string>): (ys: seq<string>)
    ensures |ys| <= |xs|
  {
    if |xs| == 0 then []
    else
      var y := f(xs[0]);
      (if y != [] then [y] else []) + MapNonEmpty(f, xs[1..])
  }

  /** Mapping and dropping empty results keeps the order of the input. */
  lemma {:induction false} MapNonEmptyConcat(f: string -> string, a: seq<string>, b: seq<string>)
    ensures MapNonEmpty(f, a + b) == MapNonEmpty(f, a) + MapNonEmpty(f, b)
  {
    if |a| == 0 {
      assert a + b == b;
    } else {
      assert (a + b)[0] == a[0] && (a + b)[1..] == a[1..] + b;
      MapNonEmptyConcat(f, a[1..], b);
    }
  }

  /** `[line.strip() for line in lines if line.strip()]`: the stripped,
      non-blank lines of the classes file, in file order. */
  function ParseClassNames(lines: seq<string>): (names: seq<string>)
    ensures |names| <= |lines|
  {
    MapNonEmpty(Strip, lines)
  }

  /** Every class name is non-empty and has no whitespace at either end. */
  lemma {:induction false} ParseClassNamesTrimmed(lines: seq<string>)
    ensures forall n :: n in ParseClassNames(lines) ==> n != [] && Trimmed(n)
  {
    if |lines| > 0 {
      var head := Strip(lines[0]);
      var h := if head != [] then [head] else [];
      ParseClassNamesTrimmed(lines[1..]);
      assert forall n :: n in ParseClassNames(lines) ==> n in h || n in ParseClassNames(lines[1..]);
    }
  }

  /** There are no class names exactly when every line is blank. */
  lemma {:induction false} ParseClassNamesNone(lines: seq<string>)
    ensures ParseClassNames(lines) == [] <==> forall l :: l in lines ==> AllSpace(l)
  {
    if |lines| > 0 {
      ParseClassNamesNone(lines[1..]);
      assert forall l :: l in lines <==> l == lines[0] || l in lines[1..];
    }
  }

  /** One line gives its stripped text as a class name, unless it is blank. */
  lemma ParseClassNamesLine(l: string)
    ensures ParseClassNames([l]) == if AllSpace(l) then [] else [Strip(l)]
  {
    assert [l][1..] == [];
  }

  /** Every class name is some line stripped, and every non-blank line gives
      its stripped text as a class name. */
  lemma {:induction false} ParseClassNamesStripped(lines: seq<string>)
    ensures forall n :: n in ParseClassNames(lines) ==> exists l :: l in lines && n == Strip(l)
    ensures forall l :: l in lines && !AllSpace(l) ==> Strip(l) in ParseClassNames(lines)
  {
    if |lines| > 0 {
      var head := Strip(lines[0]);
      var h := if head != [] then [head] else [];
      ParseClassNamesStripped(lines[1..]);
      assert ParseClassNames(lines) == h + ParseClassNames(lines[1..]);
      forall n | n in ParseClassNames(lines) ensures exists l :: l in lines && n == Strip(l) {
        if n in h {
          assert lines[0] in lines;
        } else {
          var l :| l in lines[1..] && n == Strip(l);
          assert l in lines;
        }
      }
      assert forall l :: l in lines <==> l == lines[0] || l in lines[1..];
    }
  }

  /** Reading the class names keeps the order of the lines. */
  lemma ParseClassNamesConcat(a: seq<string>, b: seq<string>)
    ensures ParseClassNames(a + b) == ParseClassNames(a) + ParseClassNames(b)
  {
    MapNonEmptyConcat(Strip, a, b);
  }

  datatype RequestError = MissingPaths | RatiosDoNotSumToOne | MissingClassesFile

  /** The button handler: both paths must be given, the three ratios must
      round to a sum of 1.0, and the classes file must be named and exist
      (`classesFile` holds its lines, or `None` when it does not exist);
      the checks run in that order and only then is the split made. */
  function RunSplit(sourceDir: string, destDir: string, train: Ratio, val: Ratio, test: Ratio,
                    classesPath: string, classesFile: Option<seq<string>>,
                    listing: seq<string>, shuffled: seq<string>, labels: set<string>): (r: Result<Outcome, RequestError>)
    requires IsPermutation(shuffled, ImageFiles(listing))
    ensures r.Err? && r.error == MissingPaths <==> sourceDir == [] || destDir == []
    ensures r.Err? && r.error == RatiosDoNotSumToOne <==>
              sourceDir != [] && destDir != [] && !RoundsToOne(train + val + test)
    ensures r.Ok? <==>
              sourceDir != [] && destDir != [] && RoundsToOne(train + val + test)
              && classesPath != [] && classesFile.Some?
    ensures r.Ok? ==> r.value == SplitDataset(listing, shuffled, labels, destDir, train, val, test,
                                              ParseClassNames(classesFile.value))
  {
    if sourceDir == [] || destDir == [] then Err(MissingPaths)
    else if !RoundsToOne(train + val + test) then Err(RatiosDoNotSumToOne)
    else if classesPath == [] || classesFile.None? then Err(MissingClassesFile)
    else Ok(SplitDataset(listing, shuffled, labels, destDir, train, val, test,
                         ParseClassNames(classesFile.value)))
  }
}

=== FILE: normalization.dfy ===
/** The normaliser: for every entry of the input folder, at most `THRESH`
    randomly chosen `*.jpg` images are copied into an output folder named
    after the class, and the copies are counted.

    The listing of the input folder, the names each class folder holds and
    the shuffled order of every class are inputs; the copies are returned. */
module Normalization {
  import opened Common

  /** The glob `*.jpg` on one name: a case-sensitive `.jpg` ending, and no
      leading dot, since a wildcard does not match a hidden name. */
  predicate MatchesJpgGlob(name: string)
  {
    EndsWith(name, ".jpg") && name[0] != '.'
  }

  /** An entry of the input folder with the names it holds; a plain file
      holds none, so the glob under it finds nothing. */
  datatype ClassDir = ClassDir(name: string, listing: seq<string>)

  /** The images the glob finds in one class folder. */
  function ClassImages(c: ClassDir): (r: seq<string>)
    ensures forall x :: x in r <==> x in c.listing && MatchesJpgGlob(x)
  {
    Filter(c.listing, MatchesJpgGlob)
  }

  /** The inner loop for one class: the shuffled images are copied in order
      and the loop stops once `c == THRESH`. Exactly the first
      `min(THRESH, n)` images are copied, the counter never passes `THRESH`,
      and the class folder is created as soon as one image is copied. */
  method CopyClass(shuffled: seq<string>, thresh: nat) returns (copied: seq<string>, madeDir: bool)
    requires thresh >= 1
    ensures |copied| == Min(thresh, |shuffled|)
    ensures copied == shuffled[..|copied|]
    ensures madeDir <==> |shuffled| > 0
  {
    copied, madeDir := [], false;
    var c := 0;
    var i := 0;
    while i < |shuffled|
      invariant 0 <= i <= |shuffled|
      invariant c == i == |copied| < thresh
      invariant copied == shuffled[..i]
      invariant madeDir <==> i > 0
    {
      madeDir := true;
      copied := copied + [shuffled[i]];
      c := c + 1;
      i := i + 1;
      if c == thresh {
        break;
      }
    }
  }

  /** What one class contributes: its name, the images copied into
      `<output>/<name>` and whether that folder was created. */
  datatype ClassCopy = ClassCopy(name: string, copied: seq<string>, madeDir: bool)

  /** `shuffles[k]` is a reordering of the images of `classes[k]`. */
  predicate ShufflesOf(classes: seq<ClassDir>, shuffles: seq<seq<string>>)
  {
    && |shuffles| == |classes|
    && forall k :: 0 <= k < |classes| ==> IsPermutation(shuffles[k], ClassImages(classes[k]))
  }

  /** `p` is what a class named `name` contributes when its images are
      shuffled into `shuffled`: the first `min(THRESH, n)` of them, and its
      folder exactly when it has an image. */
  predicate CopiesPrefix(p: ClassCopy, name: string, shuffled: seq<string>, thresh: nat)
  {
    && p.name == name
    && |p.copied| == Min(thresh, |shuffled|)
    && p.copied <= shuffled
    && (p.madeDir <==> shuffled != [])
  }

  /** The sum over the shuffled lists of `min(THRESH, n)`. */
  function CappedSum(shuffles: seq<seq<string>>, thresh: nat): nat
  {
    if |shuffles| == 0 then 0
    else CappedSum(shuffles[..|shuffles| - 1], thresh) + Min(thresh, |shuffles[|shuffles| - 1]|)
  }

  /** The reference total: the sum over the classes of `min(THRESH, n)`,
      `n` being the number of `*.jpg` images of the class. */
  function CappedTotal(classes: seq<ClassDir>, thresh: nat): nat
  {
    if |classes| == 0 then 0
    else CappedTotal(classes[..|classes| - 1], thresh) + Min(thresh, |ClassImages(classes[|classes| - 1])|)
  }

  /** Summed over the shuffled lists or over the class folders, the capped
      counts agree. */
  lemma {:induction false} CappedSumOfClasses(classes: seq<ClassDir>, shuffles: seq<seq<string>>, thresh: nat)
    requires ShufflesOf(classes, shuffles)
    ensures CappedSum(shuffles, thresh) == CappedTotal(classes, thresh)
  {
    if |classes| > 0 {
      var n := |classes| - 1;
      assert ShufflesOf(classes[..n], shuffles[..n]);
      CappedSumOfClasses(classes[..n], shuffles[..n], thresh);
      PermutationLength(shuffles[n], ClassImages(classes[n]));
    }
  }

  /** The normaliser's loop over the classes: one entry per class, in
      listing order, each copying `min(THRESH, n)` of its `n` shuffled
      images, and `total` the sum of those counts. */
  method Normalize(classes: seq<ClassDir>, shuffles: seq<seq<string>>, thresh: nat)
    returns (plan: seq<ClassCopy>, total: nat)
    requires thresh >= 1
    requires |shuffles| == |classes|
    ensures |plan| == |classes|
    ensures forall k :: 0 <= k < |plan| ==> CopiesPrefix(plan[k], classes[k].name, shuffles[k], thresh)
    ensures total == CappedSum(shuffles, thresh)
  {
    plan, total := [], 0;
    for i := 0 to |classes|
      invariant |plan| == i
      invariant forall k :: 0 <= k < i ==> CopiesPrefix(plan[k], classes[k].name, shuffles[k], thresh)
      invariant total == CappedSum(shuffles[..i], thresh)
    {
      var copied, madeDir := CopyClass(shuffles[i], thresh);
      assert shuffles[..i + 1][..i] == shuffles[..i];
      plan := plan + [ClassCopy(classes[i].name, copied, madeDir)];
      total := total + |copied|;
    }
    assert shuffles[..|shuffles|] == shuffles;
  }

  /** The copied images of a class are distinct images of that class, so no
      copy overwrites another. */
  lemma CopiedDistinctMembers(c: ClassDir, shuffled: seq<string>, n: nat)
    requires Distinct(c.listing)
    requires IsPermutation(shuffled, ClassImages(c))
    requires n <= |shuffled|
    ensures Distinct(shuffled[..n])
    ensures forall x :: x in shuffled[..n] ==> x in c.listing && MatchesJpgGlob(x)
  {
    var images := ClassImages(c);
    DistinctSub(images, c.listing);
    DistinctSub(shuffled, images);
    assert shuffled == shuffled[..n] + shuffled[n..];
    assert multiset(shuffled[..n]) <= multiset(shuffled);
    DistinctSub(shuffled[..n], shuffled);
    forall x | x in shuffled[..n] ensures x in c.listing && MatchesJpgGlob(x) {
      assert x in multiset(shuffled);
    }
  }

  datatype NormalizeError = MissingPaths

  /** What a class copies, counted against its folder: `min(THRESH, n)`
      images for the `n` images the glob finds, and a folder exactly when
      there is one. */
  lemma CopiesOfClass(p: ClassCopy, c: ClassDir, shuffled: seq<string>, thresh: nat)
    requires IsPermutation(shuffled, ClassImages(c))
    requires CopiesPrefix(p, c.name, shuffled, thresh)
    ensures |p.copied| == Min(thresh, |ClassImages(c)|)
    ensures p.madeDir <==> ClassImages(c) != []
  {
    PermutationLength(shuffled, ClassImages(c));
  }

  /** The button handler: both paths must be given. Then every class copies
      `min(THRESH, n)` of its `n` images and the total is the sum of those
      counts. */
  method RunNormalize(inputDir: string, outputDir: string, classes: seq<ClassDir>,
                      shuffles: seq<seq<string>>, thresh: nat)
    returns (r: Result<(seq<ClassCopy>, nat), NormalizeError>)
    requires thresh >= 1
    requires ShufflesOf(classes, shuffles)
    ensures r.Err? <==> inputDir == [] || outputDir == []
    ensures r.Ok? ==> |r.value.0| == |classes| && r.value.1 == CappedTotal(classes, thresh)
    ensures r.Ok? ==> forall k :: 0 <= k < |classes| ==> CopiesPrefix(r.value.0[k], classes[k].name, shuffles[k], thresh)
    ensures r.Ok? ==> forall k :: 0 <= k < |classes| ==> |r.value.0[k].copied| == Min(thresh, |ClassImages(classes[k])|)
  {
    if inputDir == [] || outputDir == [] {
      return Err(MissingPaths);
    }
    var plan, total := Normalize(classes, shuffles, thresh);
    CappedSumOfClasses(classes, shuffles, thresh);
    forall k | 0 <= k < |classes| ensures |plan[k].copied| == Min(thresh, |ClassImages(classes[k])|) {
      CopiesOfClass(plan[k], classes[k], shuffles[k], thresh);
    }
    return Ok((plan, total));
  }
}

=== FILE: ratios.dfy ===
/** Split ratios as the pages receive them. Each ratio comes from a number
    widget bounded to [0.0, 1.0]; floating point is replaced by exact reals. */
module Ratios {

  /** A ratio within the widget bounds `min_value=0.0, max_value=1.0`. */
  type Ratio = r: real | 0.0 <= r <= 1.0

  /** `int(r * n)`: Python's `int` truncates toward zero, which on a
      non-negative product is the floor. The share never exceeds the whole. */
  function ScaledFloor(r: Ratio, n: nat): (k: nat)
    ensures k <= n
    ensures k as real <= r * n as real < k as real + 1.0
  {
    var x := r * n as real;
    assert 0.0 <= x <= n as real by {
      MulNonNegative(r, n as real);
      MulNonNegative(1.0 - r, n as real);
      assert n as real - x == (1.0 - r) * n as real;
    }
    x.Floor
  }

  /** Python's `round` to a whole number on an exact value: to the nearest
      integer, and a tie to the even one. */
  function RoundHalfEven(y: real): int
  {
    var f := y.Floor;
    var d := y - f as real;
    if d < 0.5 then f
    else if d > 0.5 then f + 1
    else if f % 2 == 0 then f
    else f + 1
  }

  /** `round(x, 2) == 1.0` on an exact value: `x * 100` rounds to 100 under
      round-half-to-even exactly when it lies in [99.5, 100.5], both ends
      being ties that go to the even 100. */
  function RoundsToOne(x: real): (b: bool)
    ensures b <==> RoundHalfEven(x * 100.0) == 100
  {
    var y := x * 100.0;
    assert RoundHalfEven(y) == 100 <==> 99.5 <= y <= 100.5 by {
      var f := y.Floor;
      if 99.5 <= y < 100.0 {
        assert f == 99;
      } else if 100.0 <= y <= 100.5 {
        assert f == 100;
      }
    }
    0.995 <= x <= 1.005
  }

  lemma MulNonNegative(a: real, b: real)
    requires 0.0 <= a && 0.0 <= b
    ensures 0.0 <= a * b
  {
  }

  /** A larger ratio never yields a smaller share. */
  lemma ScaledFloorMonotonic(r1: Ratio, r2: Ratio, n: nat)
    requires r1 <= r2
    ensures ScaledFloor(r1, n) <= ScaledFloor(r2, n)
  {
    assert r1 * n as real <= r2 * n as real by {
      MulNonNegative(r2 - r1, n as real);
      assert r2 * n as real - r1 * n as real == (r2 - r1) * n as real;
    }
  }
}

=== FILE: refiner.dfy ===
/** The resolution refiner: every file under a folder is opened as an image,
    and readable images below a minimum width or height are deleted, with
    counters and one log line per file.

    The walk is given as the sequence of visited files; for each, what
    opening it yields and whether removing it would succeed are inputs. */
module Refiner {
  import opened Common

  // ---------------------------------------------------------------------
  // The decision
  // ---------------------------------------------------------------------

  /** What opening a file as an image yields. */
  datatype Probe = Unreadable | Dimensions(width: nat, height: nat)

  /** One file of the walk: its joined path, the probe, and whether the
      removal of the file would succeed were it attempted. */
  datatype Visit = Visit(path: string, probe: Probe, removable: bool)

  /** Python truthiness of an optional threshold: `None` and `0` are off. */
  predicate Enabled(t: Option<nat>)
  {
    t.Some? && t.value != 0
  }

  /** The number widget's value as passed to the cleaner: `x if x > 0 else None`.
      The cleaner's truthiness test then sees a minimum exactly when the
      widget value is positive, and sees that value. */
  function Threshold(x: nat): (t: Option<nat>)
    ensures Enabled(t) <==> x > 0
    ensures Enabled(t) ==> t.value == x
  {
    if x > 0 then Some(x) else None
  }

  /** The delete flag: set by a width below an enabled minimum width, or by
      a height below an enabled minimum height. */
  predicate TooSmall(width: nat, height: nat, minWidth: Option<nat>, minHeight: Option<nat>)
  {
    || (Enabled(minWidth) && width < minWidth.value)
    || (Enabled(minHeight) && height < minHeight.value)
  }

  /** What happens to one visited file. */
  datatype Verdict = NotAnImage | Delete | DeleteFails | Keep

  function VerdictOf(v: Visit, minWidth: Option<nat>, minHeight: Option<nat>): Verdict
  {
    match v.probe
    case Unreadable => NotAnImage
    case Dimensions(w, h) =>
      if !TooSmall(w, h, minWidth, minHeight) then Keep
      else if v.removable then Delete
      else DeleteFails
  }

  /** With no threshold enabled nothing is ever too small. */
  lemma NoThresholdKeepsAll(width: nat, height: nat, minWidth: Option<nat>, minHeight: Option<nat>)
    requires !Enabled(minWidth) && !Enabled(minHeight)
    ensures !TooSmall(width, height, minWidth, minHeight)
  {
  }

  /** A zero widget value disables its dimension: after the mapping to
      `None`, only the other minimum can flag an image. */
  lemma ZeroDisablesDimension(width: nat, height: nat, minWidth: nat, minHeight: nat)
    ensures minWidth == 0 ==>
      (TooSmall(width, height, Threshold(minWidth), Threshold(minHeight)) <==> 0 < minHeight && height < minHeight)
    ensures minHeight == 0 ==>
      (TooSmall(width, height, Threshold(minWidth), Threshold(minHeight)) <==> 0 < minWidth && width < minWidth)
  {
  }

  /** The comparison is strict: an image exactly at both minimums stays. */
  lemma AtThresholdKept(width: nat, height: nat, minWidth: Option<nat>, minHeight: Option<nat>)
    requires minWidth.Some? ==> width == minWidth.value
    requires minHeight.Some? ==> height == minHeight.value
    ensures !TooSmall(width, height, minWidth, minHeight)
  {
  }

  /** An image at least as large in both dimensions as a kept one is kept. */
  lemma LargerKept(w1: nat, h1: nat, w2: nat, h2: nat, minWidth: Option<nat>, minHeight: Option<nat>)
    requires w1 <= w2 && h1 <= h2
    requires !TooSmall(w1, h1, minWidth, minHeight)
    ensures !TooSmall(w2, h2, minWidth, minHeight)
  {
  }

  // ---------------------------------------------------------------------
  // Reference counts
  // ---------------------------------------------------------------------

  /** The number of readable files among `vs`: each one adds to `checked`. */
  function Readable(vs: seq<Visit>): nat
  {
    if |vs| == 0 then 0
    else Readable(vs[..|vs| - 1]) + (if vs[|vs| - 1].probe.Dimensions? then 1 else 0)
  }

  /** The number of files of `vs` that receive verdict `k`. */
  function Tally(vs: seq<Visit>, k: Verdict, minWidth: Option<nat>, minHeight: Option<nat>): nat
  {
    if |vs| == 0 then 0
    else Tally(vs[..|vs| - 1], k, minWidth, minHeight)
         + (if VerdictOf(vs[|vs| - 1], minWidth, minHeight) == k then 1 else 0)
  }

  /** Every readable file is deleted, fails to be deleted, or is kept:
      exactly one of the three. */
  lemma {:induction false} CheckedSplits(vs: seq<Visit>, minWidth: Option<nat>, minHeight: Option<nat>)
    ensures Readable(vs) == Tally(vs, Delete, minWidth, minHeight)
                          + Tally(vs, DeleteFails, minWidth, minHeight)
                          + Tally(vs, Keep, minWidth, minHeight)
  {
    if |vs| > 0 {
      CheckedSplits(vs[..|vs| - 1], minWidth, minHeight);
    }
  }

  /** Every file is either readable or an unreadable one. */
  lemma {:induction false} VisitedSplits(vs: seq<Visit>, minWidth: Option<nat>, minHeight: Option<nat>)
    ensures |vs| == Readable(vs) + Tally(vs, NotAnImage, minWidth, minHeight)
  {
    if |vs| > 0 {
      VisitedSplits(vs[..|vs| - 1], minWidth, minHeight);
    }
  }

  /** A tally is zero exactly when no file receives that verdict. */
  lemma {:induction false} TallyZero(vs: seq<Visit>, k: Verdict, minWidth: Option<nat>, minHeight: Option<nat>)
    ensures Tally(vs, k, minWidth, minHeight) == 0
        <==> forall v :: v in vs ==> VerdictOf(v, minWidth, minHeight) != k
  {
    if |vs| > 0 {
      var init := vs[..|vs| - 1];
      TallyZero(init, k, minWidth, minHeight);
      assert vs == init + [vs[|vs| - 1]];
      assert forall v :: v in vs <==> v in init || v == vs[|vs| - 1];
    }
  }

  /** `deleted + kept <= checked`, with equality exactly when every removal
      the cleaner attempts succeeds. */
  lemma DeletedKeptBound(vs: seq<Visit>, minWidth: Option<nat>, minHeight: Option<nat>)
    ensures Tally(vs, Delete, minWidth, minHeight) + Tally(vs, Keep, minWidth, minHeight) <= Readable(vs)
    ensures Tally(vs, Delete, minWidth, minHeight) + Tally(vs, Keep, minWidth, minHeight) == Readable(vs)
        <==> forall v :: v in vs ==> VerdictOf(v, minWidth, minHeight) != DeleteFails
  {
    CheckedSplits(vs, minWidth, minHeight);
    TallyZero(vs, DeleteFails, minWidth, minHeight);
  }

  /** With both minimums off nothing is deleted and every readable image is
      kept. */
  lemma {:induction false} NoThresholdsNothingDeleted(vs: seq<Visit>, minWidth: Option<nat>, minHeight: Option<nat>)
    requires !Enabled(minWidth) && !Enabled(minHeight)
    ensures Tally(vs, Delete, minWidth, minHeight) == 0
    ensures Tally(vs, DeleteFails, minWidth, minHeight) == 0
    ensures Tally(vs, Keep, minWidth, minHeight) == Readable(vs)
  {
    if |vs| > 0 {
      NoThresholdsNothingDeleted(vs[..|vs| - 1], minWidth, minHeight);
    }
  }

  // ---------------------------------------------------------------------
  // delete_small_images
  // ---------------------------------------------------------------------

  /** One log line; the exception text of the two failure lines is not kept. */
  datatype Log =
    | Deleted(path: string, width: nat, height: nat)
    | CouldNotDelete(path: string)
    | Kept(path: string, width: nat, height: nat)
    | Unopenable(path: string)

  /** The verdict a log line reports. */
  function Reports(l: Log): Verdict
  {
    match l
    case Deleted(_, _, _) => Delete
    case CouldNotDelete(_) => DeleteFails
    case Kept(_, _, _) => Keep
    case Unopenable(_) => NotAnImage
  }

  /** A log line names the file it is about. */
  predicate LogsVisit(l: Log, v: Visit, minWidth: Option<nat>, minHeight: Option<nat>)
  {
    && l.path == v.path
    && Reports(l) == VerdictOf(v, minWidth, minHeight)
    && (l.Deleted? || l.Kept? ==> v.probe.Dimensions? && l.width == v.probe.width && l.height == v.probe.height)
  }

  /** `delete_small_images(root, min_width, min_height)` over the walk
      `visits`: `checked` counts the readable files, `deleted` the removed
      ones, `kept` the ones large enough, and `logs` holds exactly one line
      per visited file, in walk order. */
  method DeleteSmallImages(visits: seq<Visit>, minWidth: Option<nat>, minHeight: Option<nat>)
    returns (checked: nat, deleted: nat, kept: nat, logs: seq<Log>)
    ensures checked == Readable(visits)
    ensures deleted == Tally(visits, Delete, minWidth, minHeight)
    ensures kept == Tally(visits, Keep, minWidth, minHeight)
    ensures |logs| == |visits|
    ensures forall i :: 0 <= i < |visits| ==> LogsVisit(logs[i], visits[i], minWidth, minHeight)
  {
    checked, deleted, kept, logs := 0, 0, 0, [];
    for i := 0 to |visits|
      invariant checked == Readable(visits[..i])
      invariant deleted == Tally(visits[..i], Delete, minWidth, minHeight)
      invariant kept == Tally(visits[..i], Keep, minWidth, minHeight)
      invariant |logs| == i
      invariant forall j :: 0 <= j < i ==> LogsVisit(logs[j], visits[j], minWidth, minHeight)
    {
      var v := visits[i];
      assert visits[..i + 1][..i] == visits[..i];
      var l: Log;
      match v.probe {
        case Unreadable =>
          l := Unopenable(v.path);
        case Dimensions(width, height) =>
          checked := checked + 1;
          var deleteFlag := false;
          if Enabled(minWidth) && width < minWidth.value {
            deleteFlag := true;
          }
          if Enabled(minHeight) && height < minHeight.value {
            deleteFlag := true;
          }
          if deleteFlag {
            if v.removable {
              deleted := deleted + 1;
              l := Deleted(v.path, width, height);
            } else {
              l := CouldNotDelete(v.path);
            }
          } else {
            kept := kept + 1;
            l := Kept(v.path, width, height);
          }
      }
      assert LogsVisit(l, v, minWidth, minHeight);
      logs := logs + [l];
    }
    assert visits[..|visits|] == visits;
  }

  /** The counters and log the page shows. */
  datatype Summary = Summary(checked: nat, deleted: nat, kept: nat, logs: seq<Log>)

  datatype CleanerError = NoFolder

  /** The button handler: a folder path that strips to nothing is refused;
      otherwise zero widget values become `None` and the cleaner runs. */
  method RunCleaner(folder: string, minWidth: nat, minHeight: nat, visits: seq<Visit>)
    returns (r: Result<Summary, CleanerError>)
    ensures r.Err? <==> Strip(folder) == []
    ensures r.Ok? ==> |r.value.logs| == |visits|
    ensures r.Ok? ==> r.value.checked == Readable(visits)
    ensures r.Ok? ==> r.value.deleted == Tally(visits, Delete, Threshold(minWidth), Threshold(minHeight))
    ensures r.Ok? ==> r.value.kept == Tally(visits, Keep, Threshold(minWidth), Threshold(minHeight))
    ensures r.Ok? ==> forall i :: 0 <= i < |visits| ==>
              LogsVisit(r.value.logs[i], visits[i], Threshold(minWidth), Threshold(minHeight))
    ensures r.Ok? ==> r.value.deleted + r.value.kept <= r.value.checked
    ensures r.Ok? && minWidth == 0 && minHeight == 0 ==> r.value.deleted == 0 && r.value.kept == r.value.checked
  {
    if Strip(folder) == [] {
      return Err(NoFolder);
    }
    var w, h := Threshold(minWidth), Threshold(minHeight);
    var checked, deleted, kept, logs := DeleteSmallImages(visits, w, h);
    DeletedKeptBound(visits, w, h);
    if minWidth == 0 && minHeight == 0 {
      NoThresholdsNothingDeleted(visits, w, h);
    }
    return Ok(Summary(checked, deleted, kept, logs));
  }
}
